=== FILE: README.md ===
# Learning-content triage service: a Dafny model of its core

The service turns learning material into a knowledge check and a node of
a personal learning graph. It has three endpoints:

- `POST /assess` has a hosted language model write a multiple-choice quiz.
  The quiz, answer key included, is kept in a process-wide store under a
  fresh session id. The quiz-taker gets the questions without their
  answers.
- `POST /assess/answers` runs the triage pipeline. The *scorer* tallies the
  answers per topic, classifies each topic as proficient (score at least
  0.7) or needing review, and caches the result on the session. The
  *organizer* then turns the overall score into a progress percentage and
  a status, and writes both into the content node the model proposed. The
  handler validates everything against the response schema.
- `POST /summarize` reshapes a model-written summary for one of three
  audiences.

This project models the deterministic code around the model calls. The
model's replies, the uuid drawn for a session, and whether an API key is
configured are all parameters. Python values that cross a JSON boundary
are `Json.Value`. Python exceptions are `Http.Exc`: `ValueErr` stands for
`ValueError` and its subclasses (pydantic's validation error, JSON
decoding errors), `HttpErr(code)` for `HTTPException`, and `OtherErr` for
anything else.

Modules, one per source unit:

- `QuizModel`, `QuizStore`: the stored quiz and the session store
  (`app/tools/state.py` is not part of this model; the store is a dict
  whose insertion order `QuizStore.Store.order` records).
- `ScoreQuiz`: `score_quiz`.
- `GenerateQuiz`: the deterministic part of `generate_quiz`.
- `OrganizeContent`: the deterministic part of `organize_content`.
- `SummarizeContent`: the deterministic part of `summarize_content`.
- `Schema`: the enums and bounds of the response schemas.
- `AssessEndpoint`, `TriageEndpoint`, `SummarizeEndpoint`: the three
  handlers.
- `Pipeline`: the direct score-then-organize path of `run_triage`, and the
  properties that span tools and handler.
- Helpers: `Wrappers`, `Text`, `Json`, `Http` and `Fields` (the pydantic
  field checks).

Scores are exact fractions (`QuizModel.Ratio`). A denominator of 0 stands
for the literal `0` the scorer uses when a topic or the quiz has no
questions.

Where the service's documented behaviour and its code disagree, the model
follows the code:

- An unknown or expired quiz session is documented as a client error. The
  handler does raise a 400, but inside its own `try`, and the `except
  Exception` branch turns it into a 500.
- The summarizer's prompt asks for a nested reply, but the handler reads a
  flat one.

Both are listed under Findings. Each is modelled as written and
corrected.

## Model

| member | source | states |
|---|---|---|
| QuizStore.Put | app/tools/generate_quiz.py:87 | storing a quiz sets exactly that key; other sessions are untouched; a new key joins the end of the listing order, an existing key keeps its place; the store invariant survives |
| QuizStore.Keys | app/tools/score_quiz.py:18 | the listed sessions are exactly the stored ones, each once, in insertion order |
| QuizModel.ThresholdMatchesReal | app/tools/score_quiz.py:43-44 | the integer test `10*correct >= 7*total` agrees with comparing the real score against 0.7, including the literal 0 for an empty topic |
| ScoreQuiz.TalliesTopics | app/tools/score_quiz.py:29-36 | the per-topic tallies hold each question topic exactly once ("General" when absent) and no other topic |
| ScoreQuiz.TalliesOrder | app/tools/score_quiz.py:30-33 | tallies are ordered by where their topic first occurs among the questions, as dict insertion order gives |
| ScoreQuiz.TalliesCounts | app/tools/score_quiz.py:30-36 | each tally counts exactly the questions on its topic and the correctly answered ones among them |
| ScoreQuiz.TalliesSums | app/tools/score_quiz.py:57-58 | the tallies' totals add up to the number of questions and their correct counts to the number of correct answers |
| ScoreQuiz.EvaluateTopics | app/tools/score_quiz.py:29-51 | `topics_assessed` names each distinct question topic once, in first-occurrence order, and nothing else |
| ScoreQuiz.EvaluateCounts | app/tools/score_quiz.py:29-58 | per topic 1 <= total and correct <= total, each counting that topic's questions; the overall sums match the whole quiz |
| ScoreQuiz.EvaluateClassification | app/tools/score_quiz.py:42-55 | a topic is proficient exactly when its score reaches 0.7; it goes to skip areas exactly when proficient and to focus areas exactly when not, so the two lists partition the topics; each list keeps the order of `topics_assessed` |
| ScoreQuiz.AreasOrder | app/tools/score_quiz.py:42-55 | with distinct topics, the topics of a given status are listed in the order the topics themselves come |
| ScoreQuiz.EvaluateBounds | app/tools/score_quiz.py:43-59 | overall knowledge is correct answers over questions, 0 for an empty quiz, and it and every topic score lie in [0, 1] |
| ScoreQuiz.EvaluateIgnoresTopicList | app/tools/score_quiz.py:30 | the quiz's own top-level topic list plays no part in scoring |
| ScoreQuiz.EvaluateIgnoresUnknownIds | app/tools/score_quiz.py:35 | an answer for an id no question carries neither raises nor changes the assessment |
| ScoreQuiz.EvaluateNoAnswers | app/tools/score_quiz.py:35-55 | a missing answer counts as wrong: with no answers nothing is correct, every topic needs review and nothing may be skipped |
| ScoreQuiz.Score | app/tools/score_quiz.py:16-82 | an unknown session gives the not-found outcome and leaves the store alone; a known one yields an assessment under its own id with overall at most one; the store keeps its keys, their order and its invariant |
| ScoreQuiz.ScoreUnknownSession | app/tools/score_quiz.py:16-18 | an unknown id gives the "Quiz session … not found" message with every stored session listed once, in insertion order, and changes nothing |
| ScoreQuiz.ScoreFirstTime | app/tools/score_quiz.py:27-82 | a session not yet scored is evaluated from the given answers, and that result is stored on the session |
| ScoreQuiz.ScoreIdempotent | app/tools/score_quiz.py:22-25 | scoring again, with any answers, returns the first result and leaves the store as it is |
| ScoreQuiz.ScorePreservesValid | app/tools/score_quiz.py:61-71 | scoring keeps the store invariant: keys listed once each, and every cache names its own session and has overall at most one |
| GenerateQuiz.BuildPrompt | app/tools/generate_quiz.py:24-28 | the prompt asks for n questions and max(1, n // 3) per topic, on the first 5000 characters of text content (all of a shorter text, exactly 5000 characters of a longer one) or the PDF placeholder |
| GenerateQuiz.Generate | app/tools/generate_quiz.py:79-98 | the quiz is stored under the fresh id with `correct_answer` renamed; the returned questions are the stored ones minus their answer key; title and topics default to "Quiz" and the empty list; no other session changes |
| GenerateQuiz.GenerateFreshKey | app/tools/generate_quiz.py:80-87 | a fresh id adds exactly one key, at the end of the listing order |
| GenerateQuiz.SanitizeLosesOnlyAnswer | app/tools/generate_quiz.py:90-91 | hiding the answer loses only the answer key: restoring it gives back the stored question |
| OrganizeContent.TruncToInt | app/tools/organize_content.py:24 | `int()` truncates toward zero: the result is within one of the input, on the side of zero |
| OrganizeContent.ProgressFrom | app/tools/organize_content.py:22-24 | progress is 0 without an `overall_knowledge` key and the truncated hundredfold score otherwise |
| OrganizeContent.StatusForRanges | app/tools/organize_content.py:33 | not started exactly for progress <= 0, in progress for 1..99, completed for >= 100; more progress never moves the status backwards |
| OrganizeContent.BuildSection | app/tools/organize_content.py:26-36 | the assessment section is absent exactly for an empty assessment; otherwise it carries the progress twice and its status |
| OrganizeContent.SetProgress | app/tools/organize_content.py:73-74 | the node gains `progressPercent` and `status` from the progress, and keeps every other field |
| OrganizeContent.ApplyProgress | app/tools/organize_content.py:64-77 | writing succeeds exactly for a dict reply whose `content_node`, if any, is a dict; the nested node when present, else the reply itself, gets the progress; everything else is kept |
| OrganizeContent.Organize | app/tools/organize_content.py:16-77 | it succeeds exactly when the assessment is a dict yielding a progress and a section and the reply is obtained and writable; the progress, section, url and subject placeholders and content excerpt follow the assessment and inputs, a non-empty subject list reaching the prompt as given; the reply is returned with the progress written in; a failure to obtain the reply (a pdf that is not base64, an answer that is not JSON) is raised unchanged, and every other failure is a non-validation error |
| OrganizeContent.OrganizeOverridesProgress | app/tools/organize_content.py:66-77 | whatever the model proposed, the returned node carries the derived progress and status, and every other field is as the model returned it |
| OrganizeContent.OrganizeWithoutAssessment | app/tools/organize_content.py:22-44 | without an assessment the progress is 0, the status "not_started", the section the fixed text, and the url and subject placeholders apply to empty inputs |
| SummarizeContent.TemplateFor | app/tools/summarize_content.py:22-23 | an exact audience value selects its template; anything else falls back to "self" |
| SummarizeContent.BuildGapFocus | app/tools/summarize_content.py:25-33 | there is no gap fragment exactly when the assessment is empty |
| SummarizeContent.Summarize | app/tools/summarize_content.py:16-43 | no assessment, or a false one (`[]`, `null`, `0`, `false`, `""`), means no gap fragment; a true value that is not a dict raises; a dict gives the fragment built from it; the audience is passed through with its template; text content is cut to 8000 characters, PDF content replaced by the placeholder |
| SummarizeContent.GapFocusLists | app/tools/summarize_content.py:27-31 | the fragment holds the focus and skip lists each joined with ", " in their original order |
| Text.JoinLayout | app/tools/organize_content.py:30 | a ", "-join is the items in order with the separator between consecutive ones |
| Text.JoinLength | app/tools/organize_content.py:30 | joining nothing gives ""; otherwise the join ends right after the last item |
| Json.JoinListOfStrings | app/tools/organize_content.py:30-31 | joining a JSON list of strings succeeds and is the text join of those strings |
| Text.LowerFixesLower | app/main.py:210 | lower-casing leaves already lower-case text unchanged |
| Schema.MediumEnumeration | app/schemas/responses.py:8-18 | there are eight content mediums with distinct values, and parsing a string gives a medium exactly when the string is that medium's value |
| Schema.StatusEnumeration | app/schemas/responses.py:21-28 | there are five progress statuses with distinct values, and parsing a string gives a status exactly when the string is that status's value |
| Schema.AudienceEnumeration | app/schemas/responses.py:31-36 | there are three audiences with distinct values, and parsing a string gives an audience exactly when the string is that audience's value |
| AssessEndpoint.BuildQuestions | app/main.py:136-144 | the questions are built one per returned item, in order, and building succeeds when every item builds |
| AssessEndpoint.BuildQuizResponse | app/main.py:131-145 | the response has status "awaiting_answers" and the result's session id and title, with "" and "Untitled" as defaults; its topics are the result's validated `topics` list and its questions those built from the result's `questions` items |
| AssessEndpoint.BuildQuestion | app/main.py:138-143 | a built question carries the item's own id, topic ("General" when absent), question text and validated options; an item without an id or question raises |
| AssessEndpoint.Assess | app/main.py:114-148 | 503 without an API key, before anything else; a response exactly when the agent's result builds, and then it is the built `QuizResponse`; every failure afterwards is a 500 |
| AssessEndpoint.AssessOfGeneratedQuiz | app/main.py:131-145 | the generator's returned quiz reaches the client with the same session id, title, topics and questions |
| TriageEndpoint.BuildTopic | app/main.py:192-198 | a built topic meets the schema bounds (score in [0, 1]) and carries the entry's own topic, score, status, correct count and total; an entry missing one of the five keys raises a lookup error; failures are never an HTTP status |
| TriageEndpoint.BuildAssessment | app/main.py:186-204 | the assessment is valid with status "complete"; session id, title and overall default to the request's id, "Untitled" and 0; topics are built entry by entry |
| TriageEndpoint.NormaliseMediumKeeps | app/main.py:210-212 | a medium given in any ASCII letter case is recognised; an unknown one becomes "article" |
| TriageEndpoint.NormaliseStatusKeeps | app/main.py:214-216 | a status given in any ASCII letter case is recognised; an unknown one becomes "not_started" |
| TriageEndpoint.StatusValueKept | app/main.py:214-216 | a status written as its own value reads back as that status |
| TriageEndpoint.BuildContentNode | app/main.py:218-228 | the node is valid with title at most 60 characters, at most 3 subjects and 5 tags, the request's url, priority 3, progress clamped to 0..100, and normalised medium and status |
| TriageEndpoint.BuildSuggestion | app/main.py:230-238 | each of title, subjects, tags, isNewSubject and confidence is the suggestion's own value when present and defaults to the node's (false and 0.8 for the last two) when absent; its medium is always the node's; confidence is in [0, 1] |
| TriageEndpoint.BuildOrganization | app/main.py:206-243 | the node is read from `content_node` when present, else from the whole organizer result |
| TriageEndpoint.BuildTriage | app/main.py:175-245 | a built response satisfies every schema bound; it fails with the handler's 400 exactly when the assessment is a dict containing "error" |
| TriageEndpoint.Triage | app/main.py:160-251 | 503 without an API key; a response is returned only as the schema-valid body built from the pipeline's result; every error status is 503, 404 or 500, and 404 exactly when the pipeline or the building raised a validation error; when the pipeline's result builds, that response is returned |
| TriageEndpoint.ScorerErrorIsServerError | app/main.py:178-184 | as written, a scorer error becomes a 500, not the 400 the handler raises |
| TriageEndpoint.TriageCorrected | app/main.py:178-184 | with the handler's own status passed through, 400 is returned exactly when the scorer reported an error |
| TriageEndpoint.ScorerErrorIsClientErrorCorrected | app/main.py:178-184 | corrected, a scorer error is a 400 |
| SummarizeEndpoint.AudienceOf | app/main.py:271-272 | the audience is parsed ignoring ASCII case, falling back to "self" |
| SummarizeEndpoint.AudienceIgnoresCase | app/main.py:271-272 | any letter-case spelling of an audience value selects that audience |
| SummarizeEndpoint.Reshape | app/main.py:274-284 | content, takeaways and title come from top-level keys with defaults; for the exact request audience "engineering" the code examples are the reply's `code_examples` (none when absent or null), and for any other audience there are none |
| SummarizeEndpoint.Summarize | app/main.py:254-287 | 503 without an API key; a response exactly when reshaping succeeds, and then it is the reshaped reply; every other failure is a 500 |
| SummarizeEndpoint.PromptShapedReplyRejected | app/prompts/summarizer.py:87-100 | as written, a reply in the shape the prompt asks for gives a 500 |
| SummarizeEndpoint.ReshapeNested | app/prompts/summarizer.py:87-100 | the corrected reshaping reads `content_title` and the nested `summary` object: the summary's content, its key takeaways, and for "engineering" exactly the summary's `code_examples` (none for any other audience) |
| SummarizeEndpoint.SummarizeCorrected | app/main.py:254-287 | with the corrected reshaping: 503 without a key, a response exactly when the nested reply reshapes, and then it is that reshaping, 500 otherwise |
| SummarizeEndpoint.PromptShapedReplyAccepted | app/prompts/summarizer.py:87-102 | corrected, a prompt-shaped reply is accepted with its title, content and takeaways, and code examples only for "engineering" |
| Pipeline.ProgressOfRatio | app/tools/organize_content.py:24 | the organizer turns a scorer's exact score c/t into the integer percentage floor(100c/t) |
| Pipeline.ProgressBounds | app/tools/organize_content.py:24 | a score in [0, 1] gives a percentage in 0..100, and 100 exactly for a perfect non-empty quiz |
| Pipeline.AssessmentProgress | app/tools/organize_content.py:22-24 | the organizer reads the scorer's JSON assessment as that assessment's percentage |
| Pipeline.TriageFallback | app/agents/triage_pipeline.py:84-87 | the direct path scores, then organizes with the scorer's JSON; it fails exactly when the organizer does, with the organizer's error; the store ends as scoring left it |
| Pipeline.TriageProgress | app/agents/triage_pipeline.py:84-87 | after the direct path the organizer's node carries the percentage of right answers and the matching status |
| Pipeline.KnownSessionTriageSucceeds | app/agents/triage_pipeline.py:84-87 | for a known session the direct path succeeds whenever the organizer's reply is a dict it can write the scorer's percentage into |
| Pipeline.GeneratedQuizScoresFresh | app/tools/generate_quiz.py:80-87 | a freshly generated quiz is scored from the given answers, not from a cache |
| Pipeline.AssessmentRoundTrip | app/main.py:186-204 | the handler reads back from the scorer's JSON exactly the assessment the scorer computed |
| Pipeline.EvaluatedUnitScores | app/tools/score_quiz.py:43-59 | every score a first scoring produces is a fraction of at most one |
| Pipeline.OrganizeErrorObject | app/tools/organize_content.py:22-77 | reading the scorer's error object the organizer fails exactly when its reply could not be obtained, with that error, or is not a dict it can write into |
| Pipeline.UnknownSessionIsServerError | app/main.py:178-184 | as written, an unknown session through the direct path and the handler is never a 400: a 404 when the organizer raised a validation error, a 500 otherwise |
| Pipeline.UnknownSessionIsClientErrorCorrected | app/main.py:178-184 | corrected, an unknown session ends as a 400 whenever the organizer got a dict back; an organizer failure keeps its own status (404 for a validation error), and a non-dict reply gives a 500 |
| Pipeline.HandlerReadsTargetNode | app/main.py:207 | the node the handler reads is the node the organizer wrote |
| Pipeline.ScorerJsonRead | app/main.py:187-204 | the handler keeps the scorer's session id and overall score |
| Pipeline.OrganizerNodeRead | app/main.py:206-228 | a progress in 0..100 and its status, written by the organizer, reach the response unchanged |
| Pipeline.KnownSessionEndToEnd | app/main.py:164-245 | for a known session the response carries the scorer's assessment, and a node whose progress and status are the assessment's percentage and matching status |

## Left out

- The hosted-model calls, the agents, runners and sessions, and the agent's free-text path in `run_triage`. Their outputs are parameters.
- JSON text and base64 encoding and decoding. Values are already decoded. Where the organizer decodes the pdf or the model's answer, the outcome, a `ValueErr` on failure, is a parameter.
- HTTP routing, CORS, request validation and the health/config endpoints. Only the three handlers' bodies are modelled.
- Concurrent requests sharing the quiz store. The model is sequential.
- `uuid4`. The fresh session id is a parameter, and `GenerateQuiz.GenerateFreshKey` assumes it is unused.
- Prompt template wording, logging and settings. Whether the API key is configured is a boolean parameter.
- Floating point. Scores are exact fractions, so `Pipeline.ProgressOfRatio` gives floor(100c/t) where a float product can land one lower (for example 29/100).
- The assessment sent to `/summarize`. The handler never forwards it, so `SummarizeContent.Summarize` receives it only as a parameter.
- Unicode case mapping. `str.lower` is modelled on ASCII letters only.
- Pydantic's lax coercions (numeric strings to numbers, booleans to integers). A field validates only when its JSON value already has the schema's type.
- `", ".join` of a dict, which joins its keys. The model fails on any non-list.
- `OrganizeContent.ProgressFrom`: it fails with a non-validation error on an `overall_knowledge` that is a string. Python multiplies a string by 100 and passes the repeated string to `int()`. A string of digits that are not all zeros gives a huge progress and "completed", an all-zero one gives 0 and "not_started", and any other string raises `ValueError`, which the triage handler reports as a 404. The fallback path never gets there, because the scorer always writes a number.
- GenerateQuiz.BuildPrompt: it accepts every integer, not only the 3..10 the request schema admits.

## Findings

| source | as written | input that shows it | evidently intended | confidence | as-written member | corrected member |
|---|---|---|---|---|---|---|
| app/main.py:178-184 | the 400 for a failed scoring is raised inside the `try` and caught by `except Exception`, so it is returned as a 500 | an unknown or expired quiz session id | the client error 400 that the handler raises and the service documents | not executed; high | TriageEndpoint.ScorerErrorIsServerError, Pipeline.UnknownSessionIsServerError | TriageEndpoint.ScorerErrorIsClientErrorCorrected, Pipeline.UnknownSessionIsClientErrorCorrected |
| app/main.py:274-282 | the handler reads a string `summary` and a top-level `title` from the summarizer's reply | a reply in the shape the prompt at app/prompts/summarizer.py:87-100 asks for, with `summary` an object | reading `content_title` and the nested `summary` object the prompt asks for | not executed; medium | SummarizeEndpoint.PromptShapedReplyRejected | SummarizeEndpoint.PromptShapedReplyAccepted |

=== FILE: assess_endpoint.dfy ===
/** `POST /assess`: the configuration guard and the reshaping of whatever
    the assess agent returned into the quiz response model. */
module AssessEndpoint {
  import opened Wrappers
  import opened Json
  import opened Http
  import opened Fields
  import Schema
  import GenerateQuiz

  const DefaultTitle: string := "Untitled"
  const DefaultTopic: string := "General"

  /** One `QuizQuestion(...)` built from a returned question. */
  function BuildQuestion(v: Value): (r: Result<Schema.QuizQuestion, Exc>)
    ensures r.Success? ==> v.JObj? && "id" in v.fields && "question" in v.fields
    ensures r.Success? ==> Get(v.fields, "topic", JStr(DefaultTopic)) == JStr(r.value.topic)
    ensures r.Success? ==> v.fields["id"] == JStr(r.value.id) && v.fields["question"] == JStr(r.value.question)
    ensures r.Success? ==> ValidStrMap(Get(v.fields, "options", JObj(map[]))) == Success(r.value.options)
  {
    var q :- AsDict(v);
    if "id" !in q || "question" !in q then Failure(OtherErr)
    else
      var id :- ValidStr(q["id"]);
      var topic :- ValidStr(Get(q, "topic", JStr(DefaultTopic)));
      var text :- ValidStr(q["question"]);
      var options :- ValidStrMap(Get(q, "options", JObj(map[])));
      Success(Schema.QuizQuestion(id, topic, text, options))
  }

  function BuildQuestions(items: seq<Value>): (r: Result<seq<Schema.QuizQuestion>, Exc>)
    ensures r.Success? ==> |r.value| == |items|
    ensures r.Success? ==> forall i :: 0 <= i < |items| ==> BuildQuestion(items[i]) == Success(r.value[i])
    ensures (forall i :: 0 <= i < |items| ==> BuildQuestion(items[i]).Success?) ==> r.Success?
  {
    if |items| == 0 then Success([])
    else
      var q :- BuildQuestion(items[0]);
      var rest :- BuildQuestions(items[1..]);
      Success([q] + rest)
  }

  /** The `QuizResponse(...)` built from the agent's result. */
  function BuildQuizResponse(result: Value): (r: Result<Schema.QuizResponse, Exc>)
    ensures r.Success? ==> r.value.status == "awaiting_answers"
    ensures r.Success? ==> result.JObj?
    ensures r.Success? ==> Get(result.fields, "title", JStr(DefaultTitle)) == JStr(r.value.contentTitle)
    ensures r.Success? ==> Get(result.fields, "session_id", JStr("")) == JStr(r.value.sessionId)
    ensures r.Success? ==> ValidStrList(Get(result.fields, "topics", JArr([]))) == Success(r.value.topics)
    ensures r.Success? ==>
      && Iterate(Get(result.fields, "questions", JArr([]))).Success?
      && BuildQuestions(Iterate(Get(result.fields, "questions", JArr([]))).value) == Success(r.value.questions)
  {
    var fields :- AsDict(result);
    var items :- Iterate(Get(fields, "questions", JArr([])));
    var questions :- BuildQuestions(items);
    var sessionId :- ValidStr(Get(fields, "session_id", JStr("")));
    var title :- ValidStr(Get(fields, "title", JStr(DefaultTitle)));
    var topics :- ValidStrList(Get(fields, "topics", JArr([])));
    Success(Schema.QuizResponse(sessionId, "awaiting_answers", title, topics, questions))
  }

  /** The handler: 503 without an API key before anything else, 500 for
      any exception, else the response. */
  function Assess(configured: bool, run: Result<Value, Exc>): (r: Response<Schema.QuizResponse>)
    ensures !configured ==> r == Status(ServiceUnavailable)
    ensures configured && run.Failure? ==> r == Status(ServerError)
    ensures r.Status? ==> r.code == ServiceUnavailable || r.code == ServerError
    ensures r.Ok? <==> configured && run.Success? && BuildQuizResponse(run.value).Success?
    ensures r.Ok? ==> BuildQuizResponse(run.value) == Success(r.body)
  {
    if !configured then Status(ServiceUnavailable)
    else
      match run
      case Failure(_) => Status(ServerError)
      case Success(result) =>
        match BuildQuizResponse(result)
        case Success(body) => Ok(body)
        case Failure(_) => Status(ServerError)
  }

  /** When the agent falls back to the quiz generator, the response
      carries the generator's session id, title and topics, and its
      questions in order, a missing topic shown as "General". */
  lemma AssessOfGeneratedQuiz(view: GenerateQuiz.QuizView)
    ensures var qs := view.questions;
      Assess(true, Success(GenerateQuiz.ViewJson(view))) == Ok(Schema.QuizResponse(
        view.sessionId, "awaiting_answers", view.title, view.topics,
        seq(|qs|, i requires 0 <= i < |qs| =>
          Schema.QuizQuestion(qs[i].id, qs[i].topic.GetOr(DefaultTopic), qs[i].text, qs[i].options))))
  {
    var qs := view.questions;
    var items := seq(|qs|, i requires 0 <= i < |qs| => GenerateQuiz.QuestionJson(qs[i]));
    var expected := seq(|qs|, i requires 0 <= i < |qs| =>
      Schema.QuizQuestion(qs[i].id, qs[i].topic.GetOr(DefaultTopic), qs[i].text, qs[i].options));
    forall i | 0 <= i < |qs|
      ensures BuildQuestion(items[i]) == Success(expected[i])
    {
      StrMapValid(qs[i].options);
    }
    BuildQuestionsAll(items, expected);
    StrArrayValid(view.topics);
    var fields := GenerateQuiz.ViewJson(view).fields;
    assert Get(fields, "questions", JArr([])) == JArr(items);
    assert Get(fields, "topics", JArr([])) == StrArray(view.topics);
    assert BuildQuizResponse(GenerateQuiz.ViewJson(view)) ==
      Success(Schema.QuizResponse(view.sessionId, "awaiting_answers", view.title, view.topics, expected));
  }

  lemma {:induction false} BuildQuestionsAll(items: seq<Value>, expected: seq<Schema.QuizQuestion>)
    requires |items| == |expected|
    requires forall i :: 0 <= i < |items| ==> BuildQuestion(items[i]) == Success(expected[i])
    ensures BuildQuestions(items) == Success(expected)
    decreases |items|
  {
    if |items| > 0 {
      BuildQuestionsAll(items[1..], expected[1..]);
      assert [expected[0]] + expected[1..] == expected;
    }
  }
}

=== FILE: fields.dfy ===
/** Reading decoded JSON the way the HTTP handlers do. The first group are
    Python operations on the value (`.get` on a dict, iteration, `.lower()`,
    slicing, `min`/`max`), which raise `TypeError`/`AttributeError` on the
    wrong kind of value. The second group are the response models' field
    validators, which raise pydantic's `ValidationError`, a `ValueError`. */
module Fields {
  import opened Wrappers
  import opened Json
  import opened Http
  import Text

  // ---------------------------------------------- Python operations

  /** Using the value as a dict. */
  function AsDict(v: Value): (r: Result<map<string, Value>, Exc>)
    ensures r.Success? <==> v.JObj?
    ensures r.Success? ==> r.value == v.fields
    ensures r.Failure? ==> r.error == OtherErr
  {
    match v
    case JObj(m) => Success(m)
    case _ => Failure(OtherErr)
  }

  /** `for x in v` followed by subscripting each `x` with a string key:
      a list yields its items; an empty string or dict yields nothing; a
      non-empty string or dict yields strings, and the first subscript
      raises; anything else is not iterable. */
  function Iterate(v: Value): (r: Result<seq<Value>, Exc>)
    ensures v.JArr? ==> r == Success(v.items)
    ensures r.Success? ==> v.JArr? || v == JStr("") || v == JObj(map[])
    ensures r.Failure? ==> r.error == OtherErr
  {
    match v
    case JArr(items) => Success(items)
    case JStr(s) => if s == "" then Success([]) else Failure(OtherErr)
    case JObj(m) => if |m| == 0 then Success([]) else Failure(OtherErr)
    case _ => Failure(OtherErr)
  }

  /** `v.lower()`. */
  function LowerOf(v: Value): (r: Result<string, Exc>)
    ensures r.Success? <==> v.JStr?
    ensures r.Success? ==> r.value == Text.Lower(v.s)
    ensures r.Failure? ==> r.error == OtherErr
  {
    match v
    case JStr(s) => Success(Text.Lower(s))
    case _ => Failure(OtherErr)
  }

  /** `v[:n]` on a string or a list. */
  function SliceOf(v: Value, n: nat): (r: Result<Value, Exc>)
    ensures r.Success? <==> v.JStr? || v.JArr?
    ensures v.JStr? ==> r == Success(JStr(Text.Take(v.s, n)))
    ensures v.JArr? ==> r == Success(JArr(Text.Take(v.items, n)))
    ensures r.Failure? ==> r.error == OtherErr
  {
    match v
    case JStr(s) => Success(JStr(Text.Take(s, n)))
    case JArr(items) => Success(JArr(Text.Take(items, n)))
    case _ => Failure(OtherErr)
  }

  function Clamp(x: real, lo: real, hi: real): (y: real)
    requires lo <= hi
    ensures lo <= y <= hi
    ensures lo <= x <= hi ==> y == x
    ensures x < lo ==> y == lo
    ensures x > hi ==> y == hi
  {
    if x < lo then lo else if x > hi then hi else x
  }

  /** `min(100, max(0, v))` on a number. */
  function ClampPercent(v: Value): (r: Result<Value, Exc>)
    ensures r.Success? <==> v.JNum?
    ensures r.Success? ==> r.value == JNum(Clamp(v.n, 0.0, 100.0))
    ensures r.Failure? ==> r.error == OtherErr
  {
    match v
    case JNum(x) => Success(JNum(Clamp(x, 0.0, 100.0)))
    case _ => Failure(OtherErr)
  }

  // ----------------------------------------------- field validators

  function ValidStr(v: Value): (r: Result<string, Exc>)
    ensures r.Success? <==> v.JStr?
    ensures r.Success? ==> r.value == v.s
    ensures r.Failure? ==> r.error == ValueErr
  {
    match v
    case JStr(s) => Success(s)
    case _ => Failure(ValueErr)
  }

  /** An `Optional[str]` field: absent or `null` is `None`. */
  function ValidOptStr(v: Option<Value>): (r: Result<Option<string>, Exc>)
    ensures v.None? || v == Some(JNull) ==> r == Success(None)
    ensures v.Some? && v.value.JStr? ==> r == Success(Some(v.value.s))
    ensures r.Failure? ==> r.error == ValueErr
  {
    match v
    case None => Success(None)
    case Some(JNull) => Success(None)
    case Some(JStr(s)) => Success(Some(s))
    case Some(_) => Failure(ValueErr)
  }

  function ValidStrList(v: Value): (r: Result<seq<string>, Exc>)
    ensures r.Success? <==> v.JArr? && forall i :: 0 <= i < |v.items| ==> v.items[i].JStr?
    ensures r.Success? ==> |r.value| == |v.items| && forall i :: 0 <= i < |v.items| ==> r.value[i] == v.items[i].s
    ensures r.Failure? ==> r.error == ValueErr
  {
    match v
    case JArr(items) =>
      if forall i :: 0 <= i < |items| ==> items[i].JStr? then
        Success(seq(|items|, i requires 0 <= i < |items| && items[i].JStr? => items[i].s))
      else Failure(ValueErr)
    case _ => Failure(ValueErr)
  }

  /** An `Optional[list[str]]` field. */
  function ValidOptStrList(v: Option<Value>): (r: Result<Option<seq<string>>, Exc>)
    ensures v.None? || v == Some(JNull) ==> r == Success(None)
    ensures r.Success? && r.value.Some? ==> v.Some? && ValidStrList(v.value) == Success(r.value.value)
    ensures r.Failure? ==> r.error == ValueErr
  {
    match v
    case None => Success(None)
    case Some(JNull) => Success(None)
    case Some(x) =>
      match ValidStrList(x)
      case Success(xs) => Success(Some(xs))
      case Failure(e) => Failure(e)
  }

  /** A float field bounded to [0, 1]. */
  function ValidUnit(v: Value): (r: Result<real, Exc>)
    ensures r.Success? <==> v.JNum? && 0.0 <= v.n <= 1.0
    ensures r.Success? ==> r.value == v.n
    ensures r.Failure? ==> r.error == ValueErr
  {
    match v
    case JNum(x) => if 0.0 <= x <= 1.0 then Success(x) else Failure(ValueErr)
    case _ => Failure(ValueErr)
  }

  /** An int field: a number with no fractional part. */
  function ValidInt(v: Value): (r: Result<int, Exc>)
    ensures r.Success? <==> v.JNum? && v.n.Floor as real == v.n
    ensures r.Success? ==> r.value as real == v.n
    ensures r.Failure? ==> r.error == ValueErr
  {
    match v
    case JNum(x) => if x.Floor as real == x then Success(x.Floor) else Failure(ValueErr)
    case _ => Failure(ValueErr)
  }

  function ValidBool(v: Value): (r: Result<bool, Exc>)
    ensures r.Success? <==> v.JBool?
    ensures r.Success? ==> r.value == v.b
    ensures r.Failure? ==> r.error == ValueErr
  {
    match v
    case JBool(b) => Success(b)
    case _ => Failure(ValueErr)
  }

  /** A `dict[str, str]` field. */
  function ValidStrMap(v: Value): (r: Result<map<string, string>, Exc>)
    ensures r.Success? <==> v.JObj? && forall k :: k in v.fields ==> v.fields[k].JStr?
    ensures r.Success? ==> r.value.Keys == v.fields.Keys && forall k :: k in v.fields ==> r.value[k] == v.fields[k].s
    ensures r.Failure? ==> r.error == ValueErr
  {
    match v
    case JObj(m) =>
      if forall k :: k in m ==> m[k].JStr? then Success(map k | k in m :: m[k].s)
      else Failure(ValueErr)
    case _ => Failure(ValueErr)
  }

  /** Validating the JSON encoding of a list of strings gives the list back. */
  lemma StrArrayValid(xs: seq<string>)
    ensures ValidStrList(StrArray(xs)) == Success(xs)
  {
    var items := StrArray(xs).items;
    assert seq(|items|, i requires 0 <= i < |items| && items[i].JStr? => items[i].s) == xs;
  }

  /** Validating the JSON encoding of a string map gives the map back. */
  lemma StrMapValid(m: map<string, string>)
    ensures ValidStrMap(StrMap(m)) == Success(m)
  {
    var f := StrMap(m).fields;
    assert (map k | k in f :: f[k].s) == m;
  }
}

=== FILE: generate_quiz.dfy ===
/** The quiz generator around the hosted-model call: the prompt parameters
    it sends, and what it does with the reply — rename the answer key,
    store the quiz under a fresh session id, and hand back the quiz without
    its answers. The reply itself is an input. */
module GenerateQuiz {
  import opened Wrappers
  import opened QuizModel
  import opened QuizStore
  import Text
  import Json

  /** A question as the hosted model returns it, answer key included. */
  datatype RawQuestion = RawQuestion(
    id: string,
    topic: Option<string>,
    text: string,
    options: map<string, string>,
    correctAnswer: string)

  /** The hosted model's reply. Missing `questions` reads as no questions. */
  datatype RawQuiz = RawQuiz(title: Option<string>, topics: Option<seq<string>>, questions: seq<RawQuestion>)

  /** A question as the quiz-taker sees it: no answer key. */
  datatype QuestionView = QuestionView(id: string, topic: Option<string>, text: string, options: map<string, string>)

  datatype QuizView = QuizView(sessionId: string, title: string, topics: seq<string>, questions: seq<QuestionView>)

  /** What the prompt asks for. */
  datatype QuizPrompt = QuizPrompt(content: string, perTopic: int, total: int)

  const ContentLimit: nat := 5000

  /** The prompt parameters: the content excerpt, `max(1, n // 3)`
      questions per topic and `n` in all. */
  function BuildPrompt(content: string, contentType: string, numQuestions: int): (p: QuizPrompt)
    ensures p.total == numQuestions && p.perTopic >= 1
    ensures numQuestions >= 3 ==> 3 * p.perTopic <= numQuestions < 3 * p.perTopic + 3
    ensures numQuestions < 3 ==> p.perTopic == 1
    ensures contentType == "text" ==> p.content <= content && |p.content| <= ContentLimit
    ensures contentType == "text" ==> |p.content| == if |content| <= ContentLimit then |content| else ContentLimit
    ensures contentType != "text" ==> p.content == Text.PdfPlaceholder
  {
    var perTopic := if numQuestions / 3 > 1 then numQuestions / 3 else 1;
    QuizPrompt(Text.ContentExcerpt(content, contentType, ContentLimit), perTopic, numQuestions)
  }

  /** `q["correct"] = q.pop("correct_answer")`. */
  function Normalize(rq: RawQuestion): Question {
    Question(rq.id, rq.topic, rq.text, rq.options, rq.correctAnswer)
  }

  /** `{k: v for k, v in q.items() if k != "correct"}`. */
  function Sanitize(q: Question): QuestionView {
    QuestionView(q.id, q.topic, q.text, q.options)
  }

  /** Puts an answer key back on a sanitized question. */
  function WithAnswer(v: QuestionView, correct: string): Question {
    Question(v.id, v.topic, v.text, v.options, correct)
  }

  /** Sanitizing loses exactly the answer key: restoring it gives back the
      stored question. */
  lemma SanitizeLosesOnlyAnswer(q: Question)
    ensures WithAnswer(Sanitize(q), q.correct) == q
  {
  }

  function StoredQuiz(reply: RawQuiz): (quiz: Quiz)
    ensures quiz.scored.None?
    ensures |quiz.questions| == |reply.questions|
  {
    Quiz(reply.title, reply.topics,
         seq(|reply.questions|, i requires 0 <= i < |reply.questions| => Normalize(reply.questions[i])),
         None)
  }

  datatype Generation = Generation(prompt: QuizPrompt, view: QuizView, store: Store)

  /** `generate_quiz`, given the hosted model's reply and the uuid it draws. */
  function Generate(store: Store, content: string, contentType: string, numQuestions: int,
                    reply: RawQuiz, freshId: string): (g: Generation)
    ensures g.view.sessionId == freshId
    ensures freshId in g.store.sessions && g.store.sessions[freshId] == StoredQuiz(reply)
    ensures g.view.title == reply.title.GetOr(DefaultQuizTitle)
    ensures g.view.topics == reply.topics.GetOr([])
    ensures |g.view.questions| == |reply.questions| == |g.store.sessions[freshId].questions|
    ensures forall i :: 0 <= i < |reply.questions| ==>
      && g.store.sessions[freshId].questions[i].correct == reply.questions[i].correctAnswer
      && WithAnswer(g.view.questions[i], reply.questions[i].correctAnswer) == g.store.sessions[freshId].questions[i]
    ensures forall k :: k != freshId ==> (k in g.store.sessions <==> k in store.sessions)
    ensures forall k :: k != freshId && k in store.sessions ==> g.store.sessions[k] == store.sessions[k]
    ensures store.Valid() ==> g.store.Valid()
  {
    var quiz := StoredQuiz(reply);
    var store' := Put(store, freshId, quiz);
    var view := QuizView(
      freshId,
      reply.title.GetOr(DefaultQuizTitle),
      reply.topics.GetOr([]),
      seq(|quiz.questions|, i requires 0 <= i < |quiz.questions| => Sanitize(quiz.questions[i])));
    Generation(BuildPrompt(content, contentType, numQuestions), view, store')
  }

  /** With a fresh id the store gains exactly that key, appended to the
      listing order, and every existing entry is unchanged. */
  lemma GenerateFreshKey(store: Store, content: string, contentType: string, numQuestions: int,
                         reply: RawQuiz, freshId: string)
    requires store.Valid() && freshId !in store.sessions
    ensures var g := Generate(store, content, contentType, numQuestions, reply, freshId);
      && g.store.sessions.Keys == store.sessions.Keys + {freshId}
      && g.store.order == store.order + [freshId]
      && (forall k :: k in store.sessions ==> g.store.sessions[k] == store.sessions[k])
  {
  }

  /** A sanitized question as `json.dumps` writes it: the reply's keys
      minus the answer key. */
  function QuestionJson(v: QuestionView): Json.Value {
    var base := map["id" := Json.JStr(v.id), "question" := Json.JStr(v.text), "options" := Json.StrMap(v.options)];
    Json.JObj(if v.topic.Some? then base["topic" := Json.JStr(v.topic.value)] else base)
  }

  /** The tool's return value, decoded. */
  function ViewJson(view: QuizView): Json.Value {
    Json.JObj(map[
      "session_id" := Json.JStr(view.sessionId),
      "title" := Json.JStr(view.title),
      "topics" := Json.StrArray(view.topics),
      "questions" := Json.JArr(seq(|view.questions|, i requires 0 <= i < |view.questions| => QuestionJson(view.questions[i])))])
  }
}

=== FILE: http.dfy ===
/** The exception kinds the HTTP handlers tell apart, and the outcome a
    handler produces. */
module Http {

  /** A Python exception as the handlers' `except` clauses see it.
      `ValueErr` is a `ValueError` or a subclass of it (pydantic's
      `ValidationError`, `json.JSONDecodeError`); `HttpErr` is a FastAPI
      `HTTPException` raised inside the handler's own `try`; `OtherErr` is
      anything else (`KeyError`, `TypeError`, `AttributeError`, a failed
      hosted-model call). */
  datatype Exc =
    | ValueErr
    | HttpErr(code: int)
    | OtherErr

  /** What the client receives: a validated body or an error status. */
  datatype Response<+T> = Ok(body: T) | Status(code: int)

  const ServiceUnavailable: int := 503
  const ServerError: int := 500
  const NotFound: int := 404
  const BadRequest: int := 400
}

=== FILE: json.dfy ===
/** Decoded JSON values, as the service receives them from the hosted model
    and from its own tools (after `json.loads`). Numbers are exact reals. */
module Json {
  import opened Wrappers
  import Text

  datatype Value =
    | JNull
    | JBool(b: bool)
    | JNum(n: real)
    | JStr(s: string)
    | JArr(items: seq<Value>)
    | JObj(fields: map<string, Value>)

  /** Python's truth value: `None`, `False`, zero and empty containers are
      false, everything else true. */
  predicate Truthy(v: Value) {
    match v
    case JNull => false
    case JBool(b) => b
    case JNum(n) => n != 0.0
    case JStr(s) => |s| > 0
    case JArr(items) => |items| > 0
    case JObj(fields) => |fields| > 0
  }

  /** Python's `d.get(key, default)` on a dict. */
  function Get(fields: map<string, Value>, key: string, default: Value): Value {
    if key in fields then fields[key] else default
  }

  /** Python's `d.get(key)` as an Option. */
  function Lookup(fields: map<string, Value>, key: string): Option<Value> {
    if key in fields then Some(fields[key]) else None
  }

  function StrArray(xs: seq<string>): (v: Value)
    ensures v.JArr? && |v.items| == |xs|
    ensures forall i :: 0 <= i < |xs| ==> v.items[i] == JStr(xs[i])
  {
    JArr(seq(|xs|, i requires 0 <= i < |xs| => JStr(xs[i])))
  }

  function StrMap(m: map<string, string>): (v: Value)
    ensures v.JObj? && v.fields.Keys == m.Keys
    ensures forall k :: k in m ==> v.fields[k] == JStr(m[k])
  {
    JObj(map k | k in m :: JStr(m[k]))
  }

  /** `", ".join(v)`: a list of strings, or a string (joined character by
      character); `None` where Python raises. */
  function JoinList(v: Value): (r: Option<string>)
    ensures v.JArr? && (forall i :: 0 <= i < |v.items| ==> v.items[i].JStr?) ==> r.Some?
  {
    match v
    case JArr(items) =>
      if forall i :: 0 <= i < |items| ==> items[i].JStr? then
        Some(Text.Join(seq(|items|, i requires 0 <= i < |items| && items[i].JStr? => items[i].s), ", "))
      else None
    case JStr(s) => Some(Text.Join(seq(|s|, i requires 0 <= i < |s| => [s[i]]), ", "))
    case _ => None
  }

  /** A list of strings joins to those strings, in order, separated by
      ", ". */
  lemma JoinListOfStrings(xs: seq<string>)
    ensures JoinList(StrArray(xs)) == Some(Text.Join(xs, ", "))
  {
    var items := StrArray(xs).items;
    assert seq(|items|, i requires 0 <= i < |items| && items[i].JStr? => items[i].s) == xs;
  }
}

=== FILE: organize_content.dfy ===
/** The organizer around its hosted-model call: the progress level and
    status it derives from the assessment, the prompt parameters, and the
    unconditional overwrite of the reply's progress fields. The reply, or
    the error raised while obtaining it, is an input. */
module OrganizeContent {
  import opened Wrappers
  import opened Json
  import opened Http
  import opened Schema
  import Text

  /** Python's `int(x)` on a float: truncation toward zero. */
  function TruncToInt(x: real): (n: int)
    ensures x >= 0.0 ==> 0 <= n && n as real <= x < n as real + 1.0
    ensures x < 0.0 ==> n <= 0 && n as real - 1.0 < x <= n as real
  {
    if x >= 0.0 then x.Floor else -((-x).Floor)
  }

  /** `int(assessment.get("overall_knowledge", 0) * 100)`. A boolean
      multiplies as 0 or 1; anything else that is not a number raises. */
  function ProgressFrom(assessment: map<string, Value>): (r: Result<int, Exc>)
    ensures "overall_knowledge" !in assessment ==> r == Success(0)
    ensures "overall_knowledge" in assessment && assessment["overall_knowledge"].JNum? ==>
      r.Success? && r.value == TruncToInt(assessment["overall_knowledge"].n * 100.0)
  {
    match Get(assessment, "overall_knowledge", JNum(0.0))
    case JNum(x) => Success(TruncToInt(x * 100.0))
    case JBool(b) => Success(if b then 100 else 0)
    case _ => Failure(OtherErr)
  }

  /** The status the organizer assigns for a progress level. */
  function StatusFor(progress: int): (s: ProgressStatus)
    ensures s != OnHold && s != Archived
  {
    if progress >= 100 then Completed
    else if progress > 0 then InProgress
    else NotStarted
  }

  function StatusRank(s: ProgressStatus): nat {
    match s
    case NotStarted => 0
    case InProgress => 1
    case Completed => 2
    case _ => 0
  }

  /** More progress never moves the status backwards, and the three
      statuses cover the ranges `<= 0`, `1..99` and `>= 100`. */
  lemma StatusForRanges(p: int, q: int)
    ensures p <= q ==> StatusRank(StatusFor(p)) <= StatusRank(StatusFor(q))
    ensures StatusFor(p) == NotStarted <==> p <= 0
    ensures StatusFor(p) == InProgress <==> 0 < p < 100
    ensures StatusFor(p) == Completed <==> p >= 100
  {
  }

  function JoinAreas(v: Value): Result<string, Exc> {
    match JoinList(v)
    case Some(joined) => Success(joined)
    case None => Failure(OtherErr)
  }

  datatype AssessmentSection =
    | NoAssessmentData
    | AssessmentData(overallPercent: int, focusAreas: string, skipAreas: string, progressPercent: int, status: ProgressStatus)

  const NoAssessmentText: string := "No assessment data provided."

  /** The prompt's assessment section: built from a non-empty assessment,
      the fixed "No assessment data provided." text otherwise. */
  function BuildSection(assessment: map<string, Value>, progress: int): (r: Result<AssessmentSection, Exc>)
    ensures |assessment| == 0 <==> r == Success(NoAssessmentData)
    ensures r.Success? && r.value.AssessmentData? ==>
      r.value.overallPercent == progress == r.value.progressPercent && r.value.status == StatusFor(progress)
  {
    if |assessment| == 0 then Success(NoAssessmentData)
    else
      var focus :- JoinAreas(Get(assessment, "focus_areas", JArr([])));
      var skip :- JoinAreas(Get(assessment, "skip_areas", JArr([])));
      Success(AssessmentData(progress, focus, skip, progress, StatusFor(progress)))
  }

  datatype OrganizePrompt = OrganizePrompt(content: string, url: string, existingSubjects: string, section: AssessmentSection)

  const ContentLimit: nat := 5000
  const NoUrlText: string := "Not provided"
  const NoSubjectsText: string := "None yet"

  /** The node whose progress fields get overwritten: the nested
      `content_node` when the reply has one, else the reply itself. */
  function SetProgress(node: map<string, Value>, progress: int): (r: map<string, Value>)
    ensures r.Keys == node.Keys + {"progressPercent", "status"}
    ensures r["progressPercent"] == JNum(progress as real)
    ensures r["status"] == JStr(StatusValue(StatusFor(progress)))
    ensures forall k :: k in node && k != "progressPercent" && k != "status" ==> r[k] == node[k]
  {
    node["progressPercent" := JNum(progress as real)]["status" := JStr(StatusValue(StatusFor(progress)))]
  }

  /** Writing the progress into the reply, as the organizer does after the
      hosted-model call: only a dict reply, whose `content_node` (if any)
      is a dict, can be written to. */
  function ApplyProgress(reply: Value, progress: int): (r: Result<Value, Exc>)
    ensures r.Success? <==> reply.JObj? && ("content_node" in reply.fields ==> reply.fields["content_node"].JObj?)
    ensures r.Success? && "content_node" in reply.fields ==>
      && r.value.JObj? && r.value.fields.Keys == reply.fields.Keys
      && r.value.fields["content_node"] == JObj(SetProgress(reply.fields["content_node"].fields, progress))
      && forall k :: k in reply.fields && k != "content_node" ==> r.value.fields[k] == reply.fields[k]
    ensures r.Success? && "content_node" !in reply.fields ==>
      r.value == JObj(SetProgress(reply.fields, progress))
  {
    match reply
    case JObj(fields) =>
      if "content_node" in fields then
        match fields["content_node"]
        case JObj(node) => Success(JObj(fields["content_node" := JObj(SetProgress(node, progress))]))
        case _ => Failure(OtherErr)
      else Success(JObj(SetProgress(fields, progress)))
    case _ => Failure(OtherErr)
  }

  datatype Organized = Organized(prompt: OrganizePrompt, progress: int, result: Value)

  /** `organize_content`. `assessment` is the decoded `assessment_json`,
      `None` for an empty string. `reply` is what the call yields once the
      prompt is built: the hosted model's answer as `json.loads` decodes it,
      or the exception raised on the way, `ValueErr` for a pdf that is not
      valid base64 or an answer that is not valid JSON. */
  function Organize(content: string, contentType: string, url: string, assessment: Option<Value>,
                    existingSubjects: string, reply: Result<Value, Exc>): (r: Result<Organized, Exc>)
    ensures assessment.None? ==> (r.Success? <==> reply.Success? && ApplyProgress(reply.value, 0).Success?)
    ensures assessment.None? && reply.Failure? ==> r == Failure(reply.error)
    ensures reply.Failure? ==> r.Failure?
    ensures r.Failure? ==> r.error == OtherErr || reply == Failure(r.error)
    ensures r.Success? ==> reply.Success? && ApplyProgress(reply.value, r.value.progress) == Success(r.value.result)
    ensures var a := assessment.GetOr(JObj(map[]));
      r.Success? <==>
        && a.JObj?
        && ProgressFrom(a.fields).Success?
        && BuildSection(a.fields, ProgressFrom(a.fields).value).Success?
        && reply.Success?
        && ApplyProgress(reply.value, ProgressFrom(a.fields).value).Success?
    ensures r.Success? ==>
      var a := assessment.GetOr(JObj(map[]));
      && a.JObj?
      && ProgressFrom(a.fields) == Success(r.value.progress)
      && BuildSection(a.fields, r.value.progress) == Success(r.value.prompt.section)
    ensures r.Success? ==> (url == "" ==> r.value.prompt.url == NoUrlText) && (url != "" ==> r.value.prompt.url == url)
    ensures r.Success? ==> existingSubjects == "" ==> r.value.prompt.existingSubjects == NoSubjectsText
    ensures r.Success? ==> existingSubjects != "" ==> r.value.prompt.existingSubjects == existingSubjects
    ensures r.Success? ==> r.value.prompt.content == Text.ContentExcerpt(content, contentType, ContentLimit)
  {
    var fields :- match assessment.GetOr(JObj(map[]))
                  case JObj(m) => Success(m)
                  case _ => Failure(OtherErr);
    var progress :- ProgressFrom(fields);
    var section :- BuildSection(fields, progress);
    var prompt := OrganizePrompt(
      Text.ContentExcerpt(content, contentType, ContentLimit),
      if url == "" then NoUrlText else url,
      if existingSubjects == "" then NoSubjectsText else existingSubjects,
      section);
    var answer :- reply;
    var result :- ApplyProgress(answer, progress);
    Success(Organized(prompt, progress, result))
  }

  /** The node the organizer wrote to. */
  function TargetNode(result: Value): Option<map<string, Value>> {
    match result
    case JObj(fields) =>
      if "content_node" in fields then
        (match fields["content_node"] case JObj(node) => Some(node) case _ => None)
      else Some(fields)
    case _ => None
  }

  /** Whatever the hosted model proposed, the returned node carries the
      derived progress and its status; every other field of the node, and
      of the whole reply, is as the model returned it. */
  lemma OrganizeOverridesProgress(content: string, contentType: string, url: string, assessment: Option<Value>,
                                  existingSubjects: string, reply: Result<Value, Exc>)
    requires Organize(content, contentType, url, assessment, existingSubjects, reply).Success?
    ensures var o := Organize(content, contentType, url, assessment, existingSubjects, reply).value;
      && reply.Success?
      && TargetNode(o.result).Some?
      && TargetNode(reply.value).Some?
      && TargetNode(o.result).value["progressPercent"] == JNum(o.progress as real)
      && TargetNode(o.result).value["status"] == JStr(StatusValue(StatusFor(o.progress)))
      && (forall k :: k in TargetNode(reply.value).value && k != "progressPercent" && k != "status" ==>
            TargetNode(o.result).value[k] == TargetNode(reply.value).value[k])
      && (forall k :: k in reply.value.fields && k != "content_node" && "content_node" in reply.value.fields ==>
            o.result.fields[k] == reply.value.fields[k])
  {
    var o := Organize(content, contentType, url, assessment, existingSubjects, reply).value;
    var answer := reply.value;
    assert ApplyProgress(answer, o.progress) == Success(o.result);
    if "content_node" in answer.fields {
      assert TargetNode(answer) == Some(answer.fields["content_node"].fields);
      assert TargetNode(o.result) == Some(SetProgress(answer.fields["content_node"].fields, o.progress));
    } else {
      assert TargetNode(o.result) == Some(SetProgress(answer.fields, o.progress));
    }
  }

  /** Without an assessment the progress is 0 and the status not started,
      the prompt says so, and the url and subject placeholders apply to
      empty inputs. */
  lemma OrganizeWithoutAssessment(content: string, contentType: string, url: string,
                                  existingSubjects: string, reply: Result<Value, Exc>)
    requires Organize(content, contentType, url, None, existingSubjects, reply).Success?
    ensures var o := Organize(content, contentType, url, None, existingSubjects, reply).value;
      && o.progress == 0
      && o.prompt.section == NoAssessmentData
      && TargetNode(o.result).Some?
      && "progressPercent" in TargetNode(o.result).value && "status" in TargetNode(o.result).value
      && TargetNode(o.result).value["progressPercent"] == JNum(0.0)
      && TargetNode(o.result).value["status"] == JStr("not_started")
      && (url == "" ==> o.prompt.url == "Not provided")
      && (url != "" ==> o.prompt.url == url)
      && (existingSubjects == "" ==> o.prompt.existingSubjects == "None yet")
      && (contentType == "text" ==> o.prompt.content <= content && |o.prompt.content| <= 5000)
  {
    var o := Organize(content, contentType, url, None, existingSubjects, reply).value;
    assert ProgressFrom(map[]) == Success(0);
    assert o.progress == 0;
    assert BuildSection(map[], 0) == Success(NoAssessmentData);
    assert o.prompt.content == Text.ContentExcerpt(content, contentType, ContentLimit);
    OrganizeOverridesProgress(content, contentType, url, None, existingSubjects, reply);
    assert StatusValue(StatusFor(0)) == "not_started";
  }
}

=== FILE: pipeline.dfy ===
/** The triage pipeline's direct path: the scorer's result, as the JSON the
    organizer and the `/assess/answers` handler read, fed to the organizer;
    and the properties that hold across the tools and the handler. */
module Pipeline {
  import opened Wrappers
  import opened Json
  import opened Http
  import opened QuizModel
  import opened QuizStore
  import opened ScoreQuiz
  import opened OrganizeContent
  import GenerateQuiz
  import Fields
  import Schema
  import TriageEndpoint

  // ------------------------------------------------- the scorer's JSON

  /** A score as `json.dumps` writes it: the literal `0` when nothing was
      divided. */
  function RatioJson(r: Ratio): Value {
    JNum(r.Value())
  }

  function TopicJson(t: TopicAssessment): Value {
    JObj(map[
      "topic" := JStr(t.topic),
      "score" := RatioJson(t.score),
      "status" := JStr(t.status.Label()),
      "questions_correct" := JNum(t.questionsCorrect as real),
      "questions_total" := JNum(t.questionsTotal as real)])
  }

  function AssessmentJson(a: Assessment): Value {
    JObj(map[
      "session_id" := JStr(a.sessionId),
      "title" := JStr(a.title),
      "topics_assessed" := JArr(seq(|a.topicsAssessed|, i requires 0 <= i < |a.topicsAssessed| => TopicJson(a.topicsAssessed[i]))),
      "overall_knowledge" := RatioJson(a.overall),
      "focus_areas" := StrArray(a.focusAreas),
      "skip_areas" := StrArray(a.skipAreas)])
  }

  /** What `score_quiz` returns: the error object for an unknown session,
      the assessment otherwise. */
  function OutcomeJson(o: ScoreOutcome): Value {
    match o
    case SessionNotFound(message, available) =>
      JObj(map["error" := JStr(message), "available_sessions" := StrArray(available)])
    case Scored(a) => AssessmentJson(a)
  }

  // ---------------------------------------------------------- progress

  /** The integer percentage a score stands for: `100 * c / t` rounded
      down, 0 for the literal `0`. */
  function PercentOf(r: Ratio): int {
    if r.den == 0 then 0 else (100 * r.num) / r.den
  }

  /** `int(c / t * 100)` on exact values is that percentage. */
  lemma {:induction false} ProgressOfRatio(r: Ratio)
    ensures ProgressFrom(map["overall_knowledge" := RatioJson(r)]) == Success(PercentOf(r))
  {
    if r.den > 0 {
      ScaleQuotient(r.num, r.den);
      FloorOfQuotient(100 * r.num, r.den);
    }
  }

  lemma ScaleQuotient(n: nat, d: nat)
    requires d > 0
    ensures (n as real / d as real) * 100.0 == (100 * n) as real / d as real
  {
  }

  /** Truncating an exact non-negative quotient is integer division. */
  lemma {:induction false} FloorOfQuotient(n: nat, d: nat)
    requires d > 0
    ensures TruncToInt(n as real / d as real) == n / d
  {
    var q := n / d;
    var m := n % d;
    var x := n as real / d as real;
    assert x * d as real == n as real;
    assert q as real * d as real + m as real == n as real;
    var f := m as real / d as real;
    assert f * d as real == m as real;
    assert 0.0 <= f < 1.0;
    assert x == q as real + f;
  }

  /** A score in the unit interval gives a progress level in 0..100, and
      100 exactly when every answer was right. */
  lemma {:induction false} ProgressBounds(r: Ratio)
    requires r.num <= r.den
    ensures 0 <= PercentOf(r) <= 100
    ensures PercentOf(r) == 100 <==> r.den > 0 && r.num == r.den
  {
    if r.den > 0 {
      if r.num == r.den {
        DivBelow(100 * r.num, r.den, 100);
        DivBelow(100 * r.num, r.den, 101);
      } else {
        DivBelow(100 * r.num, r.den, 100);
      }
    }
  }

  /** `a / d` against a bound `k` given `a` against `k * d`. */
  lemma {:induction false} DivBelow(a: nat, d: nat, k: nat)
    requires d > 0
    ensures a < k * d ==> a / d < k
    ensures a >= k * d ==> a / d >= k
  {
    var q := a / d;
    assert a == q * d + a % d;
    MulMono(k, q, d);
    MulMono(q + 1, k, d);
    assert (q + 1) * d == q * d + d;
  }

  lemma MulMono(x: int, y: int, d: nat)
    ensures x <= y ==> x * d <= y * d
  {
    if x <= y {
      assert y * d == x * d + (y - x) * d;
    }
  }

  /** The organizer reads the scorer's `overall_knowledge` as that
      percentage. */
  lemma AssessmentProgress(a: Assessment)
    ensures ProgressFrom(AssessmentJson(a).fields) == Success(PercentOf(a.overall))
  {
    var fields := AssessmentJson(a).fields;
    assert Get(fields, "overall_knowledge", JNum(0.0)) == RatioJson(a.overall);
    ProgressOfRatio(a.overall);
  }

  // ----------------------------------------------------- the fallback

  /** `run_triage`'s direct path: score, then organize the content with
      the scorer's result as the assessment, returning both. Nothing is
      caught, so an exception the organizer raises is what the path
      raises. */
  function TriageFallback(store: Store, sessionId: string, answers: map<string, string>,
                          content: string, contentType: string, url: string,
                          organizerReply: Result<Value, Exc>): (r: (Result<Value, Exc>, Store))
    ensures r.1 == Score(store, sessionId, answers).1
    ensures r.0.Success? ==>
      && r.0.value.JObj?
      && r.0.value.fields.Keys == {"assessment", "organization"}
      && r.0.value.fields["assessment"] == OutcomeJson(Score(store, sessionId, answers).0)
    ensures r.0.Failure? <==> Organize(content, contentType, url, Some(OutcomeJson(Score(store, sessionId, answers).0)), "", organizerReply).Failure?
    ensures r.0.Failure? ==>
      r.0.error == Organize(content, contentType, url, Some(OutcomeJson(Score(store, sessionId, answers).0)), "", organizerReply).error
  {
    var (outcome, store') := Score(store, sessionId, answers);
    var scoreJson := OutcomeJson(outcome);
    match Organize(content, contentType, url, Some(scoreJson), "", organizerReply)
    case Success(o) => (Success(JObj(map["assessment" := scoreJson, "organization" := o.result])), store')
    case Failure(e) => (Failure(e), store')
  }

  /** Organizing with a scorer's assessment writes its percentage and the
      status that percentage selects into the node. */
  lemma OrganizeScored(content: string, contentType: string, url: string, a: Assessment, organizerReply: Result<Value, Exc>)
    ensures var o := Organize(content, contentType, url, Some(AssessmentJson(a)), "", organizerReply);
      o.Success? ==>
        && TargetNode(o.value.result).Some?
        && "progressPercent" in TargetNode(o.value.result).value && "status" in TargetNode(o.value.result).value
        && TargetNode(o.value.result).value["progressPercent"] == JNum(PercentOf(a.overall) as real)
        && TargetNode(o.value.result).value["status"] == JStr(Schema.StatusValue(StatusFor(PercentOf(a.overall))))
  {
    if Organize(content, contentType, url, Some(AssessmentJson(a)), "", organizerReply).Success? {
      AssessmentProgress(a);
      OrganizeOverridesProgress(content, contentType, url, Some(AssessmentJson(a)), "", organizerReply);
    }
  }

  /** The organizer's node ends up with the percentage of right answers
      (rounded down) and the status that percentage selects. */
  lemma {:induction false} TriageProgress(store: Store, sessionId: string, answers: map<string, string>,
                                          content: string, contentType: string, url: string,
                                          organizerReply: Result<Value, Exc>)
    requires store.Valid() && sessionId in store.sessions
    ensures var a := Score(store, sessionId, answers).0.assessment;
      0 <= PercentOf(a.overall) <= 100
    ensures var a := Score(store, sessionId, answers).0.assessment;
      var run := TriageFallback(store, sessionId, answers, content, contentType, url, organizerReply).0;
      run.Success? ==>
        var org := run.value.fields["organization"];
        && TargetNode(org).Some?
        && "progressPercent" in TargetNode(org).value && "status" in TargetNode(org).value
        && TargetNode(org).value["progressPercent"] == JNum(PercentOf(a.overall) as real)
        && TargetNode(org).value["status"] == JStr(Schema.StatusValue(StatusFor(PercentOf(a.overall))))
  {
    var a := Score(store, sessionId, answers).0.assessment;
    ProgressBounds(a.overall);
    var run := TriageFallback(store, sessionId, answers, content, contentType, url, organizerReply).0;
    if run.Success? {
      assert OutcomeJson(Score(store, sessionId, answers).0) == AssessmentJson(a);
      var o := Organize(content, contentType, url, Some(AssessmentJson(a)), "", organizerReply);
      assert o.Success?;
      assert run.value.fields["organization"] == o.value.result;
      OrganizeScored(content, contentType, url, a, organizerReply);
    }
  }

  /** For a known session the direct path succeeds whenever the organizer
      got a reply it can write the scorer's percentage into: the scorer's
      JSON always yields a progress and an assessment section. */
  lemma KnownSessionTriageSucceeds(store: Store, sessionId: string, answers: map<string, string>,
                                   content: string, contentType: string, url: string,
                                   organizerReply: Result<Value, Exc>)
    requires store.Valid() && sessionId in store.sessions
    ensures var a := Score(store, sessionId, answers).0.assessment;
      organizerReply.Success? && ApplyProgress(organizerReply.value, PercentOf(a.overall)).Success? ==>
        TriageFallback(store, sessionId, answers, content, contentType, url, organizerReply).0.Success?
  {
    var a := Score(store, sessionId, answers).0.assessment;
    var fields := AssessmentJson(a).fields;
    assert OutcomeJson(Score(store, sessionId, answers).0) == AssessmentJson(a);
    AssessmentProgress(a);
    assert Get(fields, "focus_areas", JArr([])) == StrArray(a.focusAreas);
    assert Get(fields, "skip_areas", JArr([])) == StrArray(a.skipAreas);
    JoinListOfStrings(a.focusAreas);
    JoinListOfStrings(a.skipAreas);
  }

  // ---------------------------------------------- across the tools

  /** A quiz the generator just stored is scored afresh, not answered from
      a cache, whatever answers come in first. */
  lemma GeneratedQuizScoresFresh(store: Store, content: string, contentType: string, numQuestions: int,
                                 reply: GenerateQuiz.RawQuiz, freshId: string, answers: map<string, string>)
    ensures var g := GenerateQuiz.Generate(store, content, contentType, numQuestions, reply, freshId);
      Score(g.store, freshId, answers).0 == Scored(Evaluate(freshId, GenerateQuiz.StoredQuiz(reply), answers))
  {
    var g := GenerateQuiz.Generate(store, content, contentType, numQuestions, reply, freshId);
    ScoreFirstTime(g.store, freshId, answers);
  }

  /** What the handler makes of one scored topic. */
  function DecodedTopic(t: TopicAssessment): Schema.TopicAssessment {
    Schema.TopicAssessment(t.topic, t.score.Value(), t.status.Label(), t.questionsCorrect, t.questionsTotal)
  }

  /** What the handler makes of a scored assessment. */
  function Decoded(a: Assessment): Schema.AssessmentResult {
    Schema.AssessmentResult(
      a.sessionId, "complete", a.title,
      seq(|a.topicsAssessed|, i requires 0 <= i < |a.topicsAssessed| => DecodedTopic(a.topicsAssessed[i])),
      a.overall.Value(), a.focusAreas, a.skipAreas, None)
  }

  /** Every score of the assessment is a fraction of at most one. */
  predicate UnitScores(a: Assessment) {
    && a.overall.num <= a.overall.den
    && forall i :: 0 <= i < |a.topicsAssessed| ==> a.topicsAssessed[i].score.num <= a.topicsAssessed[i].score.den
  }

  /** The handler decodes the scorer's topic list entry by entry. */
  lemma {:induction false} BuildTopicsOfJson(ts: seq<TopicAssessment>, items: seq<Value>, decoded: seq<Schema.TopicAssessment>)
    requires |items| == |ts| == |decoded|
    requires forall i :: 0 <= i < |ts| ==> items[i] == TopicJson(ts[i]) && decoded[i] == DecodedTopic(ts[i])
    requires forall i :: 0 <= i < |ts| ==> ts[i].score.num <= ts[i].score.den
    ensures TriageEndpoint.BuildTopics(items) == Success(decoded)
  {
    if |ts| > 0 {
      UnitRatio(ts[0].score);
      assert TriageEndpoint.BuildTopic(items[0]) == Success(decoded[0]);
      BuildTopicsOfJson(ts[1..], items[1..], decoded[1..]);
      assert decoded == [decoded[0]] + decoded[1..];
    }
  }

  /** The handler reads back exactly what the scorer wrote: the JSON of
      an assessment with unit scores decodes to that assessment. */
  lemma {:induction false} AssessmentRoundTrip(requestSessionId: string, a: Assessment)
    requires UnitScores(a)
    ensures TriageEndpoint.BuildAssessment(requestSessionId, AssessmentJson(a).fields) == Success(Decoded(a))
  {
    var data := AssessmentJson(a).fields;
    var items := seq(|a.topicsAssessed|, i requires 0 <= i < |a.topicsAssessed| => TopicJson(a.topicsAssessed[i]));
    var d := Decoded(a);
    assert Fields.Iterate(Get(data, "topics_assessed", JArr([]))) == Success(items);
    BuildTopicsOfJson(a.topicsAssessed, items, d.topicsAssessed);
    assert Fields.ValidStr(Get(data, "session_id", JStr(requestSessionId))) == Success(a.sessionId);
    assert Fields.ValidStr(Get(data, "title", JStr(TriageEndpoint.DefaultTitle))) == Success(a.title);
    UnitRatio(a.overall);
    assert Fields.ValidUnit(Get(data, "overall_knowledge", JNum(0.0))) == Success(a.overall.Value());
    Fields.StrArrayValid(a.focusAreas);
    assert Fields.ValidStrList(Get(data, "focus_areas", JArr([]))) == Success(a.focusAreas);
    Fields.StrArrayValid(a.skipAreas);
    assert Fields.ValidStrList(Get(data, "skip_areas", JArr([]))) == Success(a.skipAreas);
    TriageEndpoint.BuildAssessmentSteps(requestSessionId, data, items, d.topicsAssessed, a.sessionId, a.title,
                                        a.overall.Value(), a.focusAreas, a.skipAreas);
  }

  /** A first scoring produces unit scores. */
  lemma EvaluatedUnitScores(sessionId: string, quiz: Quiz, answers: map<string, string>)
    ensures UnitScores(Evaluate(sessionId, quiz, answers))
  {
    var a := Evaluate(sessionId, quiz, answers);
    EvaluateBounds(sessionId, quiz, answers);
    CountCorrectBound(quiz.questions, answers);
    EvaluateCounts(sessionId, quiz, answers);
  }

  /** For an unknown session the organizer reads the scorer's error object:
      no `overall_knowledge`, so progress 0, and no areas to join. It fails
      exactly when obtaining its reply failed, with that error, or when the
      reply is not a dict it can write into. */
  lemma OrganizeErrorObject(content: string, contentType: string, url: string,
                            message: string, available: seq<string>, organizerReply: Result<Value, Exc>)
    ensures var o := Organize(content, contentType, url, Some(OutcomeJson(SessionNotFound(message, available))), "", organizerReply);
      && (organizerReply.Failure? ==> o == Failure(organizerReply.error))
      && (organizerReply.Success? ==> (o.Success? <==> ApplyProgress(organizerReply.value, 0).Success?))
      && (o.Failure? && organizerReply.Success? ==> o.error == OtherErr)
  {
    var fields := OutcomeJson(SessionNotFound(message, available)).fields;
    assert Get(fields, "overall_knowledge", JNum(0.0)) == JNum(0.0);
    assert ProgressFrom(fields) == Success(0);
    assert JoinList(JArr([])) == Some("");
    assert BuildSection(fields, 0).Success?;
  }

  /** Through the fallback and the handler, an unknown session id is never
      reported as a client error: the organizer's own `ValueError` (a pdf
      that is not base64, a reply that is not JSON) gives a 404, and
      everything else, the scorer's error object included, a 500. */
  lemma UnknownSessionIsServerError(store: Store, req: TriageEndpoint.AnswersRequest, organizerReply: Result<Value, Exc>)
    requires req.sessionId !in store.sessions
    ensures var run := TriageFallback(store, req.sessionId, req.answers, req.content, req.contentType, req.url.GetOr(""), organizerReply).0;
      TriageEndpoint.Triage(true, req, run) ==
        if organizerReply.Failure? then Status(TriageEndpoint.StatusFor(organizerReply.error)) else Status(ServerError)
  {
    var run := TriageFallback(store, req.sessionId, req.answers, req.content, req.contentType, req.url.GetOr(""), organizerReply).0;
    var o := Score(store, req.sessionId, req.answers).0;
    OrganizeErrorObject(req.content, req.contentType, req.url.GetOr(""), o.message, o.availableSessions, organizerReply);
    if run.Success? {
      assert OutcomeJson(o).fields.Keys == {"error", "available_sessions"};
      TriageEndpoint.ScorerErrorIsServerError(req, run.value.fields, OutcomeJson(o).fields);
    }
  }

  /** With the handler's 400 passed through, an unknown session id is
      reported as a client error whenever the organizer got a dict back;
      an organizer failure keeps its own status. */
  lemma UnknownSessionIsClientErrorCorrected(store: Store, req: TriageEndpoint.AnswersRequest, organizerReply: Result<Value, Exc>)
    requires req.sessionId !in store.sessions
    ensures var run := TriageFallback(store, req.sessionId, req.answers, req.content, req.contentType, req.url.GetOr(""), organizerReply).0;
      TriageEndpoint.TriageCorrected(true, req, run) ==
        if organizerReply.Failure? then Status(TriageEndpoint.StatusForCorrected(organizerReply.error))
        else if ApplyProgress(organizerReply.value, 0).Success? then Status(BadRequest)
        else Status(ServerError)
  {
    var run := TriageFallback(store, req.sessionId, req.answers, req.content, req.contentType, req.url.GetOr(""), organizerReply).0;
    var o := Score(store, req.sessionId, req.answers).0;
    OrganizeErrorObject(req.content, req.contentType, req.url.GetOr(""), o.message, o.availableSessions, organizerReply);
    if run.Success? {
      assert OutcomeJson(o).fields.Keys == {"error", "available_sessions"};
      TriageEndpoint.ScorerErrorIsClientErrorCorrected(req, run.value.fields, OutcomeJson(o).fields);
    }
  }

  /** The node the handler reads is the node the organizer wrote. */
  lemma HandlerReadsTargetNode(org: Value)
    requires org.JObj? && TriageEndpoint.NodeData(org.fields).JObj?
    ensures TargetNode(org) == Some(TriageEndpoint.NodeData(org.fields).fields)
  {
  }

  /** What the handler reads from the scorer's JSON. */
  lemma ScorerJsonRead(requestSessionId: string, a: Assessment, result: Schema.AssessmentResult)
    requires TriageEndpoint.BuildAssessment(requestSessionId, AssessmentJson(a).fields) == Success(result)
    ensures result.sessionId == a.sessionId && result.overallKnowledge == a.overall.Value()
    ensures UnitScores(a) ==> result == Decoded(a)
  {
    var data := AssessmentJson(a).fields;
    assert Get(data, "session_id", JStr(requestSessionId)) == JStr(a.sessionId);
    assert Get(data, "overall_knowledge", JNum(0.0)) == RatioJson(a.overall);
    if UnitScores(a) {
      AssessmentRoundTrip(requestSessionId, a);
    }
  }

  /** What the handler reads from a node whose progress fields the
      organizer wrote. */
  lemma OrganizerNodeRead(url: Option<string>, org: Value, p: int)
    requires 0 <= p <= 100
    ensures var r := TriageEndpoint.BuildOrganization(url, org);
      && r.Success?
      && TargetNode(org).Some?
      && "progressPercent" in TargetNode(org).value && TargetNode(org).value["progressPercent"] == JNum(p as real)
      && "status" in TargetNode(org).value && TargetNode(org).value["status"] == JStr(Schema.StatusValue(StatusFor(p)))
      ==> r.value.contentNode.progressPercent == p && r.value.contentNode.status == StatusFor(p)
  {
    var r := TriageEndpoint.BuildOrganization(url, org);
    if r.Success? && TargetNode(org).Some? {
      HandlerReadsTargetNode(org);
      var node := TriageEndpoint.NodeData(org.fields).fields;
      assert TargetNode(org).value == node;
      assert TriageEndpoint.BuildContentNode(url, node) == Success(r.value.contentNode);
      NodeProgressRead(url, node, p);
      NodeStatusRead(url, node, StatusFor(p));
    }
  }

  lemma NodeProgressRead(url: Option<string>, node: map<string, Value>, p: int)
    requires 0 <= p <= 100
    ensures var r := TriageEndpoint.BuildContentNode(url, node);
      r.Success? && "progressPercent" in node && node["progressPercent"] == JNum(p as real) ==>
        r.value.progressPercent == p
  {
    if "progressPercent" in node && node["progressPercent"] == JNum(p as real) {
      assert Get(node, "progressPercent", JNum(0.0)) == JNum(p as real);
    }
  }

  lemma NodeStatusRead(url: Option<string>, node: map<string, Value>, s: Schema.ProgressStatus)
    ensures var r := TriageEndpoint.BuildContentNode(url, node);
      r.Success? && "status" in node && node["status"] == JStr(Schema.StatusValue(s)) ==>
        r.value.status == s
  {
    if "status" in node && node["status"] == JStr(Schema.StatusValue(s)) {
      assert Get(node, "status", JStr(TriageEndpoint.DefaultStatusText)) == JStr(Schema.StatusValue(s));
      TriageEndpoint.StatusValueKept(s);
    }
  }

  /** End to end for a known session: the response carries the session's
      overall score, the content node the percentage of right answers and
      the status it selects, whatever the organizer proposed; a first
      scoring comes back exactly as the scorer computed it. */
  lemma {:induction false} KnownSessionEndToEnd(store: Store, req: TriageEndpoint.AnswersRequest, organizerReply: Result<Value, Exc>)
    requires store.Valid() && req.sessionId in store.sessions
    ensures var a := Score(store, req.sessionId, req.answers).0.assessment;
      var r := TriageEndpoint.Triage(true, req,
        TriageFallback(store, req.sessionId, req.answers, req.content, req.contentType, req.url.GetOr(""), organizerReply).0);
      r.Ok? ==>
        && r.body.assessment.sessionId == req.sessionId
        && r.body.assessment.overallKnowledge == a.overall.Value()
        && (UnitScores(a) ==> r.body.assessment == Decoded(a))
        && r.body.organization.contentNode.progressPercent == PercentOf(a.overall)
        && r.body.organization.contentNode.status == StatusFor(PercentOf(a.overall))
  {
    var url := req.url.GetOr("");
    var run := TriageFallback(store, req.sessionId, req.answers, req.content, req.contentType, url, organizerReply).0;
    var r := TriageEndpoint.Triage(true, req, run);
    if r.Ok? {
      var body := r.body;
      TriageEndpoint.BuildTriageParts(req, run.value);
      var a := Score(store, req.sessionId, req.answers).0.assessment;
      assert Get(run.value.fields, "assessment", JObj(map[])) == AssessmentJson(a);
      ScorerJsonRead(req.sessionId, a, body.assessment);
      TriageProgress(store, req.sessionId, req.answers, req.content, req.contentType, url, organizerReply);
      assert Get(run.value.fields, "organization", JObj(map[])) == run.value.fields["organization"];
      OrganizerNodeRead(req.url, run.value.fields["organization"], PercentOf(a.overall));
    }
  }
}

=== FILE: quiz_model.dfy ===
/** The entities of the quiz-session lifecycle: stored questions with their
    hidden answer key, the per-topic and whole-quiz assessment the scorer
    derives, and the quiz record the store keeps per session. */
module QuizModel {
  import opened Wrappers

  /** An exact score `num / den`. The scorer computes `correct / total`
      only when `total > 0` and uses the literal `0` otherwise, which is
      what `den == 0` stands for here. */
  datatype Ratio = Ratio(num: nat, den: nat) {
    function Value(): real {
      if den == 0 then 0.0 else num as real / den as real
    }
  }

  /** The proficiency threshold 0.7 as the fraction 7/10. */
  const ThresholdNum: nat := 7
  const ThresholdDen: nat := 10

  /** `score >= 0.7`, with the score as an exact fraction. */
  predicate MeetsThreshold(r: Ratio) {
    r.den > 0 && ThresholdDen * r.num >= ThresholdNum * r.den
  }

  /** The integer form of the threshold agrees with comparing the real
      value of the score against 0.7, including the `0` used when there is
      nothing to divide by. */
  lemma ThresholdMatchesReal(r: Ratio)
    ensures MeetsThreshold(r) <==> r.Value() >= 0.7
  {
    if r.den > 0 {
      var d := r.den as real;
      var v := r.num as real / d;
      assert v * d == r.num as real;
      if 10 * r.num >= 7 * r.den {
        assert v * d >= 0.7 * d;
      } else {
        assert v * d < 0.7 * d;
      }
    }
  }

  datatype Mastery = Proficient | NeedsReview {
    function Label(): string {
      match this
      case Proficient => "proficient"
      case NeedsReview => "needs_review"
    }
  }

  /** A stored question. `topic` may be absent; `correct` is the answer
      key the generator renamed from `correct_answer`. */
  datatype Question = Question(
    id: string,
    topic: Option<string>,
    text: string,
    options: map<string, string>,
    correct: string)

  const DefaultTopic: string := "General"
  const DefaultQuizTitle: string := "Quiz"

  function TopicOf(q: Question): string {
    q.topic.GetOr(DefaultTopic)
  }

  datatype TopicAssessment = TopicAssessment(
    topic: string,
    score: Ratio,
    status: Mastery,
    questionsCorrect: nat,
    questionsTotal: nat)

  datatype Assessment = Assessment(
    sessionId: string,
    title: string,
    topicsAssessed: seq<TopicAssessment>,
    overall: Ratio,
    focusAreas: seq<string>,
    skipAreas: seq<string>)

  /** A stored quiz. `scored` merges the `_scored` flag and the cached
      `_score_result`: the scorer always sets both at once. */
  datatype Quiz = Quiz(
    title: Option<string>,
    topics: Option<seq<string>>,
    questions: seq<Question>,
    scored: Option<Assessment>)
}

=== FILE: quiz_store.dfy ===
/** The process-wide quiz store: a dict from session id to quiz. Python
    dicts remember insertion order, which is the order in which the scorer
    lists the known sessions; `order` records it. */
module QuizStore {
  import opened QuizModel

  datatype Store = Store(sessions: map<string, Quiz>, order: seq<string>) {

    /** `order` lists every key exactly once, and a cached result is one
        the scorer could have computed for its session. */
    ghost predicate Valid() {
      && (forall i, j :: 0 <= i < j < |order| ==> order[i] != order[j])
      && (forall k :: k in sessions <==> k in order)
      && (forall k :: k in sessions ==> CacheConsistent(sessions[k], k))
    }
  }

  /** A cached result names the session it is cached under and its
      overall score is at most one. */
  predicate CacheConsistent(quiz: Quiz, id: string) {
    quiz.scored.Some? ==>
      && quiz.scored.value.sessionId == id
      && quiz.scored.value.overall.num <= quiz.scored.value.overall.den
  }

  function Empty(): (s: Store)
    ensures s.Valid() && s.sessions == map[] && s.order == []
  {
    Store(map[], [])
  }

  /** `store[id] = quiz`: a new key joins the end of the order, an existing
      key keeps its place and gets the new value. */
  function Put(s: Store, id: string, quiz: Quiz): (s': Store)
    ensures id in s'.sessions && s'.sessions[id] == quiz
    ensures forall k :: k != id ==> (k in s'.sessions <==> k in s.sessions)
    ensures forall k :: k != id && k in s.sessions ==> s'.sessions[k] == s.sessions[k]
    ensures s.Valid() && CacheConsistent(quiz, id) ==> s'.Valid()
    ensures s.Valid() && id in s.sessions ==> s'.order == s.order
    ensures s.Valid() && id !in s.sessions ==> s'.order == s.order + [id]
  {
    if id in s.sessions then Store(s.sessions[id := quiz], s.order)
    else Store(s.sessions[id := quiz], s.order + [id])
  }

  /** `list(store.keys())`. */
  function Keys(s: Store): (ks: seq<string>)
    ensures s.Valid() ==> forall k :: k in ks <==> k in s.sessions
    ensures s.Valid() ==> forall i, j :: 0 <= i < j < |ks| ==> ks[i] != ks[j]
    ensures ks == s.order
  {
    s.order
  }
}

=== FILE: schema.dfy ===
/** The response schemas of the HTTP API: the three string enumerations,
    the response records, and the field bounds and defaults their
    validators enforce. */
module Schema {
  import opened Wrappers

  /** Looking an enumeration member up by its string value, as
      `Enum(value)` does; `None` stands for the `ValueError` it raises. */
  function FindByValue<T>(members: seq<T>, value: T -> string, s: string): (r: Option<T>)
    ensures r.Some? ==> r.value in members && value(r.value) == s
    ensures r.None? ==> forall i :: 0 <= i < |members| ==> value(members[i]) != s
  {
    if |members| == 0 then None
    else if value(members[0]) == s then Some(members[0])
    else FindByValue(members[1..], value, s)
  }

  ghost predicate DistinctValues<T>(members: seq<T>, value: T -> string) {
    forall i, j :: 0 <= i < j < |members| ==> value(members[i]) != value(members[j])
  }

  lemma {:induction false} FindByValueIff<T>(members: seq<T>, value: T -> string, s: string, x: T)
    requires x in members
    requires DistinctValues(members, value)
    ensures FindByValue(members, value, s) == Some(x) <==> value(x) == s
    decreases |members|
  {
    if members[0] != x {
      var k :| 0 <= k < |members| && members[k] == x;
      assert value(members[0]) != value(members[k]);
      assert members[1..][k - 1] == x;
      FindByValueIff(members[1..], value, s, x);
    }
  }

  // ---------------------------------------------------------------- enums

  datatype ContentMedium = Whitepaper | ResearchPaper | Article | Video | Audio | Course | Podcast | Ebook

  function MediumValue(m: ContentMedium): string {
    match m
    case Whitepaper => "whitepaper"
    case ResearchPaper => "research_paper"
    case Article => "article"
    case Video => "video"
    case Audio => "audio"
    case Course => "course"
    case Podcast => "podcast"
    case Ebook => "ebook"
  }

  const AllMediums: seq<ContentMedium> :=
    [Whitepaper, ResearchPaper, Article, Video, Audio, Course, Podcast, Ebook]

  /** `ContentMedium(s)`. */
  function ParseMedium(s: string): Option<ContentMedium> {
    FindByValue(AllMediums, MediumValue, s)
  }

  /** The enumeration has exactly eight members with pairwise distinct
      values, and parsing a string yields `m` exactly when `s` is `m`'s value. */
  lemma MediumEnumeration(s: string, m: ContentMedium)
    ensures |AllMediums| == 8 && m in AllMediums
    ensures DistinctValues(AllMediums, MediumValue)
    ensures ParseMedium(s) == Some(m) <==> MediumValue(m) == s
  {
    assert DistinctValues(AllMediums, MediumValue);
    FindByValueIff(AllMediums, MediumValue, s, m);
  }

  datatype ProgressStatus = NotStarted | InProgress | Completed | OnHold | Archived

  function StatusValue(p: ProgressStatus): string {
    match p
    case NotStarted => "not_started"
    case InProgress => "in_progress"
    case Completed => "completed"
    case OnHold => "on_hold"
    case Archived => "archived"
  }

  const AllStatuses: seq<ProgressStatus> := [NotStarted, InProgress, Completed, OnHold, Archived]

  /** `ProgressStatus(s)`. */
  function ParseStatus(s: string): Option<ProgressStatus> {
    FindByValue(AllStatuses, StatusValue, s)
  }

  lemma StatusEnumeration(s: string, p: ProgressStatus)
    ensures |AllStatuses| == 5 && p in AllStatuses
    ensures DistinctValues(AllStatuses, StatusValue)
    ensures ParseStatus(s) == Some(p) <==> StatusValue(p) == s
  {
    assert DistinctValues(AllStatuses, StatusValue);
    FindByValueIff(AllStatuses, StatusValue, s, p);
  }

  datatype Audience = Engineering | Business | Self

  function AudienceValue(a: Audience): string {
    match a
    case Engineering => "engineering"
    case Business => "business"
    case Self => "self"
  }

  const AllAudiences: seq<Audience> := [Engineering, Business, Self]

  /** `Audience(s)`. */
  function ParseAudience(s: string): Option<Audience> {
    FindByValue(AllAudiences, AudienceValue, s)
  }

  lemma AudienceEnumeration(s: string, a: Audience)
    ensures |AllAudiences| == 3 && a in AllAudiences
    ensures DistinctValues(AllAudiences, AudienceValue)
    ensures ParseAudience(s) == Some(a) <==> AudienceValue(a) == s
  {
    assert DistinctValues(AllAudiences, AudienceValue);
    FindByValueIff(AllAudiences, AudienceValue, s, a);
  }

  // ------------------------------------------------------- response records

  datatype QuizQuestion = QuizQuestion(id: string, topic: string, question: string, options: map<string, string>)

  datatype QuizResponse = QuizResponse(
    sessionId: string,
    status: string,
    contentTitle: string,
    topics: seq<string>,
    questions: seq<QuizQuestion>)

  datatype TopicAssessment = TopicAssessment(
    topic: string,
    score: real,
    status: string,
    questionsCorrect: int,
    questionsTotal: int)

  datatype AssessmentResult = AssessmentResult(
    sessionId: string,
    status: string,
    contentTitle: string,
    topicsAssessed: seq<TopicAssessment>,
    overallKnowledge: real,
    focusAreas: seq<string>,
    skipAreas: seq<string>,
    estimatedLearningTime: Option<string>)

  datatype ContentNodeMetadata = ContentNodeMetadata(
    title: string,
    medium: ContentMedium,
    subjects: seq<string>,
    url: Option<string>,
    status: ProgressStatus,
    progressPercent: int,
    author: Option<string>,
    source: Option<string>,
    estimatedDuration: Option<int>,
    priority: int,
    notes: Option<string>,
    tags: seq<string>)

  datatype AISuggestion = AISuggestion(
    title: string,
    medium: ContentMedium,
    subjects: seq<string>,
    tags: seq<string>,
    isNewSubject: bool,
    confidence: real)

  datatype OrganizeResponse = OrganizeResponse(contentNode: ContentNodeMetadata, aiSuggestion: AISuggestion)

  datatype SummaryContent = SummaryContent(
    audience: Audience,
    content: string,
    keyTakeaways: seq<string>,
    codeExamples: Option<seq<string>>)

  datatype SummarizeResponse = SummarizeResponse(contentTitle: string, summary: SummaryContent)

  datatype TriageResponse = TriageResponse(assessment: AssessmentResult, organization: OrganizeResponse)

  // ------------------------------------------------------ bounds, defaults

  const DefaultProgressPercent: int := 0
  const DefaultStatus: ProgressStatus := NotStarted
  const DefaultPriority: int := 3

  predicate InUnit(x: real) {
    0.0 <= x <= 1.0
  }

  predicate TopicAssessmentValid(t: TopicAssessment) {
    InUnit(t.score)
  }

  predicate AssessmentResultValid(a: AssessmentResult) {
    && InUnit(a.overallKnowledge)
    && forall i :: 0 <= i < |a.topicsAssessed| ==> TopicAssessmentValid(a.topicsAssessed[i])
  }

  predicate ContentNodeValid(n: ContentNodeMetadata) {
    && 0 <= n.progressPercent <= 100
    && 1 <= n.priority <= 5
  }

  predicate AISuggestionValid(s: AISuggestion) {
    InUnit(s.confidence)
  }

  predicate TriageResponseValid(r: TriageResponse) {
    && AssessmentResultValid(r.assessment)
    && ContentNodeValid(r.organization.contentNode)
    && AISuggestionValid(r.organization.aiSuggestion)
  }
}

=== FILE: score_quiz.dfy ===
/** The scorer: looks a session up, returns the cached assessment of a
    session scored before, and otherwise tallies the answers per topic,
    classifies each topic against the 0.7 threshold, and caches the result. */
module ScoreQuiz {
  import opened Wrappers
  import opened QuizModel
  import opened QuizStore

  // ------------------------------------------------------------ answers

  /** `answers.get(q["id"]) == q.get("correct")`: a missing id gives
      `None`, which never equals a stored label. */
  predicate IsCorrect(q: Question, answers: map<string, string>) {
    q.id in answers && answers[q.id] == q.correct
  }

  function Hit(b: bool): nat {
    if b then 1 else 0
  }

  // ------------------------------------------- reference definitions

  /** The topic of every question, in question order. */
  function TopicList(qs: seq<Question>): (ts: seq<string>)
    ensures |ts| == |qs|
    ensures forall i :: 0 <= i < |qs| ==> ts[i] == TopicOf(qs[i])
  {
    seq(|qs|, i requires 0 <= i < |qs| => TopicOf(qs[i]))
  }

  /** Index of the first question whose topic is `t`. */
  function FirstIndex(qs: seq<Question>, t: string): (k: nat)
    requires t in TopicList(qs)
    ensures k < |qs| && TopicOf(qs[k]) == t
    decreases |qs|
  {
    if TopicOf(qs[0]) == t then 0
    else
      assert TopicList(qs[1..]) == TopicList(qs)[1..];
      1 + FirstIndex(qs[1..], t)
  }

  /** Number of questions on topic `t`. */
  function CountTopic(qs: seq<Question>, t: string): nat
    decreases |qs|
  {
    if |qs| == 0 then 0
    else CountTopic(qs[..|qs| - 1], t) + (if TopicOf(qs[|qs| - 1]) == t then 1 else 0)
  }

  /** Number of correctly answered questions on topic `t`. */
  function CountCorrectTopic(qs: seq<Question>, answers: map<string, string>, t: string): nat
    decreases |qs|
  {
    if |qs| == 0 then 0
    else
      var q := qs[|qs| - 1];
      CountCorrectTopic(qs[..|qs| - 1], answers, t) + (if TopicOf(q) == t && IsCorrect(q, answers) then 1 else 0)
  }

  /** Number of correctly answered questions. */
  function CountCorrect(qs: seq<Question>, answers: map<string, string>): nat
    decreases |qs|
  {
    if |qs| == 0 then 0
    else CountCorrect(qs[..|qs| - 1], answers) + Hit(IsCorrect(qs[|qs| - 1], answers))
  }

  // --------------------------------------------------------- tallying

  /** One entry of the insertion-ordered `topics_scores` dict. */
  datatype Tally = Tally(topic: string, correct: nat, total: nat)

  function TallyTopics(ts: seq<Tally>): (r: seq<string>)
    ensures |r| == |ts|
    ensures forall i :: 0 <= i < |ts| ==> r[i] == ts[i].topic
  {
    seq(|ts|, i requires 0 <= i < |ts| => ts[i].topic)
  }

  ghost predicate DistinctTopics(ts: seq<Tally>) {
    forall i, j :: 0 <= i < j < |ts| ==> ts[i].topic != ts[j].topic
  }

  /** Count one more question on `topic`: create the entry on first sight
      (at the end, as a dict does), then bump its total and, on a hit, its
      correct count. */
  function Bump(ts: seq<Tally>, topic: string, hit: bool): seq<Tally>
    decreases |ts|
  {
    if |ts| == 0 then [Tally(topic, Hit(hit), 1)]
    else if ts[0].topic == topic then [Tally(topic, ts[0].correct + Hit(hit), ts[0].total + 1)] + ts[1..]
    else [ts[0]] + Bump(ts[1..], topic, hit)
  }

  /** The loop over `quiz["questions"]`, one question at a time. */
  function Tallies(qs: seq<Question>, answers: map<string, string>): seq<Tally>
    decreases |qs|
  {
    if |qs| == 0 then []
    else
      var q := qs[|qs| - 1];
      Bump(Tallies(qs[..|qs| - 1], answers), TopicOf(q), IsCorrect(q, answers))
  }

  /** Bumping an existing topic increments that entry alone; bumping a new
      one appends a fresh entry. */
  lemma {:induction false} BumpEffect(ts: seq<Tally>, t: string, h: bool)
    requires DistinctTopics(ts)
    ensures t in TallyTopics(ts) ==>
      && |Bump(ts, t, h)| == |ts|
      && forall k :: 0 <= k < |ts| ==>
           Bump(ts, t, h)[k] == (if ts[k].topic == t then Tally(t, ts[k].correct + Hit(h), ts[k].total + 1) else ts[k])
    ensures t !in TallyTopics(ts) ==> Bump(ts, t, h) == ts + [Tally(t, Hit(h), 1)]
    decreases |ts|
  {
    if |ts| > 0 && ts[0].topic != t {
      assert TallyTopics(ts[1..]) == TallyTopics(ts)[1..];
      BumpEffect(ts[1..], t, h);
    }
  }

  lemma {:induction false} FirstIndexAppend(qs: seq<Question>, q: Question, t: string)
    requires t in TopicList(qs)
    ensures t in TopicList(qs + [q])
    ensures FirstIndex(qs + [q], t) == FirstIndex(qs, t)
    decreases |qs|
  {
    assert TopicList(qs + [q]) == TopicList(qs) + [TopicOf(q)];
    if TopicOf(qs[0]) != t {
      assert (qs + [q])[1..] == qs[1..] + [q];
      assert TopicList(qs[1..]) == TopicList(qs)[1..];
      FirstIndexAppend(qs[1..], q, t);
    }
  }

  lemma {:induction false} FirstIndexNew(qs: seq<Question>, q: Question)
    requires TopicOf(q) !in TopicList(qs)
    ensures TopicOf(q) in TopicList(qs + [q])
    ensures FirstIndex(qs + [q], TopicOf(q)) == |qs|
    decreases |qs|
  {
    assert TopicList(qs + [q]) == TopicList(qs) + [TopicOf(q)];
    if |qs| > 0 {
      assert TopicOf(qs[0]) == TopicList(qs)[0];
      assert (qs + [q])[1..] == qs[1..] + [q];
      assert TopicList(qs[1..]) == TopicList(qs)[1..];
      FirstIndexNew(qs[1..], q);
    }
  }

  lemma {:induction false} CountAbsent(qs: seq<Question>, answers: map<string, string>, t: string)
    requires t !in TopicList(qs)
    ensures CountTopic(qs, t) == 0 && CountCorrectTopic(qs, answers, t) == 0
    decreases |qs|
  {
    if |qs| > 0 {
      var p := qs[..|qs| - 1];
      assert TopicList(p) == TopicList(qs)[..|qs| - 1];
      CountAbsent(p, answers, t);
    }
  }

  /** Counting one more question adds its topic once, at the end, if it
      is new, and keeps the topics distinct. */
  lemma {:induction false} BumpTopics(ts: seq<Tally>, t: string, h: bool)
    requires DistinctTopics(ts)
    ensures DistinctTopics(Bump(ts, t, h))
    ensures TallyTopics(Bump(ts, t, h)) == if t in TallyTopics(ts) then TallyTopics(ts) else TallyTopics(ts) + [t]
  {
    var r := Bump(ts, t, h);
    BumpEffect(ts, t, h);
    if t in TallyTopics(ts) {
      assert forall k :: 0 <= k < |ts| ==> r[k].topic == ts[k].topic;
    } else {
      assert forall k :: 0 <= k < |ts| ==> ts[k].topic != t;
    }
  }

  /** The tallies hold one entry per distinct topic, and exactly the
      topics the questions carry. */
  lemma {:induction false} TalliesTopics(qs: seq<Question>, answers: map<string, string>)
    ensures DistinctTopics(Tallies(qs, answers))
    ensures forall t :: t in TallyTopics(Tallies(qs, answers)) <==> t in TopicList(qs)
    ensures forall k :: 0 <= k < |Tallies(qs, answers)| ==> Tallies(qs, answers)[k].topic in TopicList(qs)
    decreases |qs|
  {
    if |qs| > 0 {
      var p := qs[..|qs| - 1];
      var q := qs[|qs| - 1];
      assert qs == p + [q];
      assert TopicList(qs) == TopicList(p) + [TopicOf(q)];
      TalliesTopics(p, answers);
      BumpTopics(Tallies(p, answers), TopicOf(q), IsCorrect(q, answers));
      var r := Tallies(qs, answers);
      assert forall k :: 0 <= k < |r| ==> r[k].topic == TallyTopics(r)[k];
    }
  }

  /** Each tally counts exactly the questions on its topic, and the
      correctly answered ones among them. */
  lemma {:induction false} TalliesCounts(qs: seq<Question>, answers: map<string, string>)
    ensures forall k :: 0 <= k < |Tallies(qs, answers)| ==>
      && Tallies(qs, answers)[k].total == CountTopic(qs, Tallies(qs, answers)[k].topic)
      && Tallies(qs, answers)[k].correct == CountCorrectTopic(qs, answers, Tallies(qs, answers)[k].topic)
    decreases |qs|
  {
    if |qs| > 0 {
      var p := qs[..|qs| - 1];
      var q := qs[|qs| - 1];
      var t := TopicOf(q);
      var h := IsCorrect(q, answers);
      TalliesTopics(p, answers);
      TalliesCounts(p, answers);
      var ts := Tallies(p, answers);
      var r := Tallies(qs, answers);
      assert r == Bump(ts, t, h);
      BumpEffect(ts, t, h);
      if t !in TallyTopics(ts) {
        assert TopicList(p) == TopicList(qs)[..|qs| - 1];
        CountAbsent(p, answers, t);
      }
      forall k | 0 <= k < |r|
        ensures r[k].total == CountTopic(qs, r[k].topic)
        ensures r[k].correct == CountCorrectTopic(qs, answers, r[k].topic)
      {
      }
    }
  }

  ghost predicate TopicsOccur(qs: seq<Question>, ts: seq<Tally>) {
    forall k :: 0 <= k < |ts| ==> ts[k].topic in TopicList(qs)
  }

  /** Entries appear in the order their topics first occur among `qs`. */
  ghost predicate FirstSeenOrder(qs: seq<Question>, ts: seq<Tally>)
    requires TopicsOccur(qs, ts)
  {
    forall i, j :: 0 <= i < j < |ts| ==> FirstIndex(qs, ts[i].topic) < FirstIndex(qs, ts[j].topic)
  }

  /** Counting one more question keeps the tallies in first-seen order. */
  lemma {:induction false} BumpKeepsOrder(p: seq<Question>, q: Question, ts: seq<Tally>, h: bool)
    requires DistinctTopics(ts)
    requires forall t :: t in TallyTopics(ts) <==> t in TopicList(p)
    requires TopicsOccur(p, ts) && FirstSeenOrder(p, ts)
    ensures TopicsOccur(p + [q], Bump(ts, TopicOf(q), h))
    ensures FirstSeenOrder(p + [q], Bump(ts, TopicOf(q), h))
  {
    var t := TopicOf(q);
    var r := Bump(ts, t, h);
    BumpEffect(ts, t, h);
    assert TopicList(p + [q]) == TopicList(p) + [t];
    assert forall k :: 0 <= k < |ts| ==> r[k].topic == ts[k].topic;
    forall k | 0 <= k < |r|
      ensures r[k].topic in TopicList(p + [q])
    {
    }
    forall i, j | 0 <= i < j < |r|
      ensures FirstIndex(p + [q], r[i].topic) < FirstIndex(p + [q], r[j].topic)
    {
      FirstIndexAppend(p, q, ts[i].topic);
      if j < |ts| {
        FirstIndexAppend(p, q, ts[j].topic);
      } else {
        FirstIndexNew(p, q);
      }
    }
  }

  /** The tallies are ordered by where each topic first occurs. */
  lemma {:induction false} TalliesOrder(qs: seq<Question>, answers: map<string, string>)
    ensures TopicsOccur(qs, Tallies(qs, answers))
    ensures FirstSeenOrder(qs, Tallies(qs, answers))
    decreases |qs|
  {
    if |qs| > 0 {
      var p := qs[..|qs| - 1];
      var q := qs[|qs| - 1];
      assert qs == p + [q];
      TalliesTopics(p, answers);
      TalliesOrder(p, answers);
      BumpKeepsOrder(p, q, Tallies(p, answers), IsCorrect(q, answers));
    }
  }

  function TallyTotal(ts: seq<Tally>): nat {
    if |ts| == 0 then 0 else ts[0].total + TallyTotal(ts[1..])
  }

  function TallyCorrect(ts: seq<Tally>): nat {
    if |ts| == 0 then 0 else ts[0].correct + TallyCorrect(ts[1..])
  }

  lemma {:induction false} BumpSums(ts: seq<Tally>, t: string, h: bool)
    ensures TallyTotal(Bump(ts, t, h)) == TallyTotal(ts) + 1
    ensures TallyCorrect(Bump(ts, t, h)) == TallyCorrect(ts) + Hit(h)
    decreases |ts|
  {
    if |ts| > 0 {
      if ts[0].topic != t {
        BumpSums(ts[1..], t, h);
        assert ([ts[0]] + Bump(ts[1..], t, h))[1..] == Bump(ts[1..], t, h);
      } else {
        assert ([Tally(t, ts[0].correct + Hit(h), ts[0].total + 1)] + ts[1..])[1..] == ts[1..];
      }
    }
  }

  /** Every question is counted once: the totals add up to the number of
      questions and the correct counts to the number answered correctly. */
  lemma {:induction false} TalliesSums(qs: seq<Question>, answers: map<string, string>)
    ensures TallyTotal(Tallies(qs, answers)) == |qs|
    ensures TallyCorrect(Tallies(qs, answers)) == CountCorrect(qs, answers)
    decreases |qs|
  {
    if |qs| > 0 {
      var q := qs[|qs| - 1];
      TalliesSums(qs[..|qs| - 1], answers);
      BumpSums(Tallies(qs[..|qs| - 1], answers), TopicOf(q), IsCorrect(q, answers));
    }
  }

  // ----------------------------------------------------- classification

  /** One `topics_assessed` entry: the exact score and its status. */
  function AssessTopic(t: Tally): TopicAssessment {
    var score := Ratio(t.correct, t.total);
    TopicAssessment(t.topic, score, if MeetsThreshold(score) then Proficient else NeedsReview, t.correct, t.total)
  }

  function AssessTopics(ts: seq<Tally>): (r: seq<TopicAssessment>)
    ensures |r| == |ts|
    ensures forall i :: 0 <= i < |ts| ==> r[i] == AssessTopic(ts[i])
  {
    seq(|ts|, i requires 0 <= i < |ts| => AssessTopic(ts[i]))
  }

  /** The topics with status `m`, appended while walking the topics. */
  function AreasWith(tas: seq<TopicAssessment>, m: Mastery): seq<string> {
    if |tas| == 0 then []
    else (if tas[0].status == m then [tas[0].topic] else []) + AreasWith(tas[1..], m)
  }

  /** `skip_areas`: the proficient topics. */
  function SkipAreas(tas: seq<TopicAssessment>): seq<string> {
    AreasWith(tas, Proficient)
  }

  /** `focus_areas`: the topics needing review. */
  function FocusAreas(tas: seq<TopicAssessment>): seq<string> {
    AreasWith(tas, NeedsReview)
  }

  function TotalCorrect(tas: seq<TopicAssessment>): nat {
    if |tas| == 0 then 0 else tas[0].questionsCorrect + TotalCorrect(tas[1..])
  }

  function TotalQuestions(tas: seq<TopicAssessment>): nat {
    if |tas| == 0 then 0 else tas[0].questionsTotal + TotalQuestions(tas[1..])
  }

  lemma {:induction false} AssessTopicsSums(ts: seq<Tally>)
    ensures TotalCorrect(AssessTopics(ts)) == TallyCorrect(ts)
    ensures TotalQuestions(AssessTopics(ts)) == TallyTotal(ts)
    decreases |ts|
  {
    if |ts| > 0 {
      assert AssessTopics(ts)[1..] == AssessTopics(ts[1..]);
      AssessTopicsSums(ts[1..]);
    }
  }

  /** A topic is a skip area exactly when some entry for it is proficient,
      and a focus area exactly when some entry for it needs review; the two
      lists share out the entries between them. */
  lemma {:induction false} AreasMembership(tas: seq<TopicAssessment>, x: string)
    ensures x in SkipAreas(tas) <==> exists k :: 0 <= k < |tas| && tas[k].topic == x && tas[k].status == Proficient
    ensures x in FocusAreas(tas) <==> exists k :: 0 <= k < |tas| && tas[k].topic == x && tas[k].status == NeedsReview
    ensures |SkipAreas(tas)| + |FocusAreas(tas)| == |tas|
    decreases |tas|
  {
    if |tas| > 0 {
      AreasMembership(tas[1..], x);
      if (exists k :: 0 <= k < |tas[1..]| && tas[1..][k].topic == x && tas[1..][k].status == Proficient) {
        var k :| 0 <= k < |tas[1..]| && tas[1..][k].topic == x && tas[1..][k].status == Proficient;
        assert tas[k + 1] == tas[1..][k];
      }
      if (exists k :: 0 <= k < |tas[1..]| && tas[1..][k].topic == x && tas[1..][k].status == NeedsReview) {
        var k :| 0 <= k < |tas[1..]| && tas[1..][k].topic == x && tas[1..][k].status == NeedsReview;
        assert tas[k + 1] == tas[1..][k];
      }
      if (exists k :: 0 <= k < |tas| && tas[k].topic == x && tas[k].status == Proficient) {
        var k :| 0 <= k < |tas| && tas[k].topic == x && tas[k].status == Proficient;
        if k > 0 {
          assert tas[1..][k - 1] == tas[k];
        }
      }
      if (exists k :: 0 <= k < |tas| && tas[k].topic == x && tas[k].status == NeedsReview) {
        var k :| 0 <= k < |tas| && tas[k].topic == x && tas[k].status == NeedsReview;
        if k > 0 {
          assert tas[1..][k - 1] == tas[k];
        }
      }
    }
  }

  // ------------------------------------------------------------ scoring

  /** The assessment a first scoring computes. The quiz's own top-level
      `topics` list plays no part. */
  function Evaluate(sessionId: string, quiz: Quiz, answers: map<string, string>): (a: Assessment)
    ensures a.sessionId == sessionId
    ensures a.title == quiz.title.GetOr(DefaultQuizTitle)
  {
    var tas := AssessTopics(Tallies(quiz.questions, answers));
    Assessment(
      sessionId,
      quiz.title.GetOr(DefaultQuizTitle),
      tas,
      Ratio(TotalCorrect(tas), TotalQuestions(tas)),
      FocusAreas(tas),
      SkipAreas(tas))
  }

  function TopicNames(tas: seq<TopicAssessment>): (r: seq<string>)
    ensures |r| == |tas|
    ensures forall i :: 0 <= i < |tas| ==> r[i] == tas[i].topic
  {
    seq(|tas|, i requires 0 <= i < |tas| => tas[i].topic)
  }

  /** Position of the first occurrence of `x` in `xs`. */
  function IndexOf(xs: seq<string>, x: string): (k: nat)
    requires x in xs
    ensures k < |xs| && xs[k] == x
    decreases |xs|
  {
    if xs[0] == x then 0 else 1 + IndexOf(xs[1..], x)
  }

  /** With distinct topics, a topic named after the first sits one place
      further along the whole list than along the rest. */
  lemma NamesShift(tas: seq<TopicAssessment>, x: string)
    requires forall i, j :: 0 <= i < j < |tas| ==> tas[i].topic != tas[j].topic
    requires |tas| > 0 && x in TopicNames(tas[1..])
    ensures x in TopicNames(tas)
    ensures IndexOf(TopicNames(tas), x) == 1 + IndexOf(TopicNames(tas[1..]), x)
  {
    var k := IndexOf(TopicNames(tas[1..]), x);
    assert tas[k + 1].topic == x;
    assert TopicNames(tas)[1..] == TopicNames(tas[1..]);
  }

  /** With distinct topics, the topics of status `m` appear in `AreasWith`
      in the order the topics themselves are listed. */
  lemma {:induction false} AreasOrder(tas: seq<TopicAssessment>, m: Mastery)
    requires forall i, j :: 0 <= i < j < |tas| ==> tas[i].topic != tas[j].topic
    ensures forall i :: 0 <= i < |AreasWith(tas, m)| ==> AreasWith(tas, m)[i] in TopicNames(tas)
    ensures forall i, j :: 0 <= i < j < |AreasWith(tas, m)| ==>
      IndexOf(TopicNames(tas), AreasWith(tas, m)[i]) < IndexOf(TopicNames(tas), AreasWith(tas, m)[j])
    decreases |tas|
  {
    if |tas| > 0 {
      var rest := tas[1..];
      var names := TopicNames(tas);
      var tail := AreasWith(rest, m);
      var all := AreasWith(tas, m);
      AreasOrder(rest, m);
      // position of `all[i]` in `tail`, when it comes from there
      var skip := if tas[0].status == m then 1 else 0;
      assert all == (if tas[0].status == m then [tas[0].topic] else []) + tail;
      forall i | skip <= i < |all|
        ensures all[i] == tail[i - skip] && all[i] in names
        ensures IndexOf(names, all[i]) == 1 + IndexOf(TopicNames(rest), tail[i - skip])
      {
        NamesShift(tas, tail[i - skip]);
      }
      if skip == 1 {
        assert names[0] == tas[0].topic;
        assert IndexOf(names, all[0]) == 0;
      }
    }
  }

  /** `topics_assessed` names each distinct question topic once ("General"
      for a question without one), ordered by where it first occurs. */
  lemma EvaluateTopics(sessionId: string, quiz: Quiz, answers: map<string, string>)
    ensures var tas := Evaluate(sessionId, quiz, answers).topicsAssessed;
      && (forall i, j :: 0 <= i < j < |tas| ==> tas[i].topic != tas[j].topic)
      && (forall t :: t in TopicNames(tas) <==> t in TopicList(quiz.questions))
      && (forall k :: 0 <= k < |tas| ==> tas[k].topic in TopicList(quiz.questions))
      && (forall i, j :: 0 <= i < j < |tas| ==>
            FirstIndex(quiz.questions, tas[i].topic) < FirstIndex(quiz.questions, tas[j].topic))
  {
    var ts := Tallies(quiz.questions, answers);
    TalliesTopics(quiz.questions, answers);
    TalliesOrder(quiz.questions, answers);
    assert TopicNames(AssessTopics(ts)) == TallyTopics(ts);
  }

  /** Per topic `1 <= questions_total` and `questions_correct <=
      questions_total`, each counting that topic's questions; the totals
      add up to the number of questions and the correct counts to the
      number of questions whose id maps to the stored answer. */
  lemma EvaluateCounts(sessionId: string, quiz: Quiz, answers: map<string, string>)
    ensures var a := Evaluate(sessionId, quiz, answers);
      && (forall k :: 0 <= k < |a.topicsAssessed| ==>
            && 1 <= a.topicsAssessed[k].questionsTotal
            && a.topicsAssessed[k].questionsCorrect <= a.topicsAssessed[k].questionsTotal
            && a.topicsAssessed[k].questionsTotal == CountTopic(quiz.questions, a.topicsAssessed[k].topic)
            && a.topicsAssessed[k].questionsCorrect == CountCorrectTopic(quiz.questions, answers, a.topicsAssessed[k].topic))
      && TotalQuestions(a.topicsAssessed) == |quiz.questions|
      && TotalCorrect(a.topicsAssessed) == CountCorrect(quiz.questions, answers)
  {
    var qs := quiz.questions;
    var ts := Tallies(qs, answers);
    TalliesCounts(qs, answers);
    TalliesTopics(qs, answers);
    TalliesSums(qs, answers);
    AssessTopicsSums(ts);
    forall k | 0 <= k < |ts|
      ensures 1 <= ts[k].total && ts[k].correct <= ts[k].total
    {
      CountBounds(qs, answers, ts[k].topic);
    }
  }

  lemma {:induction false} CountBounds(qs: seq<Question>, answers: map<string, string>, t: string)
    ensures CountCorrectTopic(qs, answers, t) <= CountTopic(qs, t)
    ensures t in TopicList(qs) ==> 1 <= CountTopic(qs, t)
    decreases |qs|
  {
    if |qs| > 0 {
      var p := qs[..|qs| - 1];
      assert TopicList(qs) == TopicList(p) + [TopicOf(qs[|qs| - 1])];
      CountBounds(p, answers, t);
    }
  }

  /** A topic is "proficient" exactly when its score reaches 0.7 (so
      exactly 0.7 is proficient); `skip_areas` and `focus_areas` split the
      topics between them, a topic going to skip exactly when proficient,
      and each list keeps the order of `topics_assessed`. */
  lemma EvaluateClassification(sessionId: string, quiz: Quiz, answers: map<string, string>)
    ensures var a := Evaluate(sessionId, quiz, answers);
      && (forall k :: 0 <= k < |a.topicsAssessed| ==>
            && (a.topicsAssessed[k].status == Proficient <==> a.topicsAssessed[k].score.Value() >= 0.7)
            && (a.topicsAssessed[k].status == Proficient <==>
                  10 * a.topicsAssessed[k].questionsCorrect >= 7 * a.topicsAssessed[k].questionsTotal)
            && (a.topicsAssessed[k].topic in a.skipAreas <==> a.topicsAssessed[k].status == Proficient)
            && (a.topicsAssessed[k].topic in a.focusAreas <==> a.topicsAssessed[k].status == NeedsReview))
      && (forall x :: x in a.skipAreas ==> x in TopicNames(a.topicsAssessed))
      && (forall x :: x in a.focusAreas ==> x in TopicNames(a.topicsAssessed))
      && |a.skipAreas| + |a.focusAreas| == |a.topicsAssessed|
      && (forall i, j :: 0 <= i < j < |a.skipAreas| ==>
            IndexOf(TopicNames(a.topicsAssessed), a.skipAreas[i]) < IndexOf(TopicNames(a.topicsAssessed), a.skipAreas[j]))
      && (forall i, j :: 0 <= i < j < |a.focusAreas| ==>
            IndexOf(TopicNames(a.topicsAssessed), a.focusAreas[i]) < IndexOf(TopicNames(a.topicsAssessed), a.focusAreas[j]))
  {
    var a := Evaluate(sessionId, quiz, answers);
    var tas := a.topicsAssessed;
    EvaluateTopics(sessionId, quiz, answers);
    EvaluateCounts(sessionId, quiz, answers);
    forall k | 0 <= k < |tas|
      ensures tas[k].status == Proficient <==> tas[k].score.Value() >= 0.7
      ensures tas[k].topic in a.skipAreas <==> tas[k].status == Proficient
      ensures tas[k].topic in a.focusAreas <==> tas[k].status == NeedsReview
    {
      ThresholdMatchesReal(tas[k].score);
      AreasMembership(tas, tas[k].topic);
    }
    forall x | x in a.skipAreas || x in a.focusAreas
      ensures x in TopicNames(tas)
    {
      AreasMembership(tas, x);
    }
    AreasMembership(tas, "");
    AreasOrder(tas, Proficient);
    AreasOrder(tas, NeedsReview);
  }

  /** `overall_knowledge` is total correct over total questions, 0 for a
      quiz without questions, and it and every topic score lie in [0, 1]. */
  lemma EvaluateBounds(sessionId: string, quiz: Quiz, answers: map<string, string>)
    ensures var a := Evaluate(sessionId, quiz, answers);
      && a.overall == Ratio(CountCorrect(quiz.questions, answers), |quiz.questions|)
      && (|quiz.questions| == 0 ==> a.overall.Value() == 0.0)
      && 0.0 <= a.overall.Value() <= 1.0
      && forall k :: 0 <= k < |a.topicsAssessed| ==> 0.0 <= a.topicsAssessed[k].score.Value() <= 1.0
  {
    var a := Evaluate(sessionId, quiz, answers);
    EvaluateCounts(sessionId, quiz, answers);
    CountCorrectBound(quiz.questions, answers);
    UnitRatio(a.overall);
    forall k | 0 <= k < |a.topicsAssessed|
      ensures 0.0 <= a.topicsAssessed[k].score.Value() <= 1.0
    {
      UnitRatio(a.topicsAssessed[k].score);
    }
  }

  lemma {:induction false} CountCorrectBound(qs: seq<Question>, answers: map<string, string>)
    ensures CountCorrect(qs, answers) <= |qs|
    decreases |qs|
  {
    if |qs| > 0 {
      CountCorrectBound(qs[..|qs| - 1], answers);
    }
  }

  lemma UnitRatio(r: Ratio)
    requires r.num <= r.den
    ensures 0.0 <= r.Value() <= 1.0
  {
    if r.den > 0 {
      var d := r.den as real;
      assert r.Value() * d == r.num as real;
    }
  }

  /** Evaluating ignores the quiz's top-level `topics` list and its
      cached result. */
  lemma EvaluateIgnoresTopicList(sessionId: string, quiz: Quiz, topics: Option<seq<string>>, answers: map<string, string>)
    ensures Evaluate(sessionId, quiz.(topics := topics), answers) == Evaluate(sessionId, quiz, answers)
  {
  }

  /** Two answer maps that agree on which questions are answered correctly
      tally identically. */
  lemma {:induction false} TalliesRespectHits(qs: seq<Question>, a1: map<string, string>, a2: map<string, string>)
    requires forall i :: 0 <= i < |qs| ==> IsCorrect(qs[i], a1) == IsCorrect(qs[i], a2)
    ensures Tallies(qs, a1) == Tallies(qs, a2)
    decreases |qs|
  {
    if |qs| > 0 {
      var p := qs[..|qs| - 1];
      assert forall i :: 0 <= i < |p| ==> p[i] == qs[i];
      TalliesRespectHits(p, a1, a2);
    }
  }

  /** An answer for an id that no question carries is ignored: it neither
      raises nor changes the assessment. */
  lemma EvaluateIgnoresUnknownIds(sessionId: string, quiz: Quiz, answers: map<string, string>, id: string, given: string)
    requires forall i :: 0 <= i < |quiz.questions| ==> quiz.questions[i].id != id
    ensures Evaluate(sessionId, quiz, answers[id := given]) == Evaluate(sessionId, quiz, answers)
  {
    TalliesRespectHits(quiz.questions, answers[id := given], answers);
  }

  lemma {:induction false} NothingAnsweredCounts(qs: seq<Question>, t: string)
    ensures CountCorrect(qs, map[]) == 0
    ensures CountCorrectTopic(qs, map[], t) == 0
    decreases |qs|
  {
    if |qs| > 0 {
      NothingAnsweredCounts(qs[..|qs| - 1], t);
    }
  }

  /** A missing answer counts as wrong: with no answers at all nothing is
      correct, every topic needs review and nothing may be skipped. */
  lemma EvaluateNoAnswers(sessionId: string, quiz: Quiz)
    ensures var a := Evaluate(sessionId, quiz, map[]);
      && a.overall == Ratio(0, |quiz.questions|)
      && a.skipAreas == []
      && forall k :: 0 <= k < |a.topicsAssessed| ==>
           a.topicsAssessed[k].questionsCorrect == 0 && a.topicsAssessed[k].status == NeedsReview
  {
    var a := Evaluate(sessionId, quiz, map[]);
    EvaluateCounts(sessionId, quiz, map[]);
    EvaluateBounds(sessionId, quiz, map[]);
    EvaluateClassification(sessionId, quiz, map[]);
    NothingAnsweredCounts(quiz.questions, "");
    forall k | 0 <= k < |a.topicsAssessed|
      ensures a.topicsAssessed[k].questionsCorrect == 0
      ensures a.topicsAssessed[k].status == NeedsReview
    {
      NothingAnsweredCounts(quiz.questions, a.topicsAssessed[k].topic);
    }
    NoSkipWithoutProficiency(a.topicsAssessed);
  }

  lemma {:induction false} NoSkipWithoutProficiency(tas: seq<TopicAssessment>)
    requires forall k :: 0 <= k < |tas| ==> tas[k].status == NeedsReview
    ensures SkipAreas(tas) == []
    decreases |tas|
  {
    if |tas| > 0 {
      NoSkipWithoutProficiency(tas[1..]);
    }
  }

  // ----------------------------------------------------- the state machine

  datatype ScoreOutcome =
    | SessionNotFound(message: string, availableSessions: seq<string>)
    | Scored(assessment: Assessment)

  function NotFoundMessage(sessionId: string): string {
    "Quiz session " + sessionId + " not found"
  }

  /** `score_quiz`: the outcome and the store after the call. */
  function Score(store: Store, sessionId: string, answers: map<string, string>): (r: (ScoreOutcome, Store))
    ensures sessionId !in store.sessions ==> r.0.SessionNotFound? && r.1 == store
    ensures sessionId in store.sessions ==> r.0.Scored?
    ensures store.Valid() && sessionId in store.sessions ==> r.0.assessment.sessionId == sessionId
    ensures store.Valid() && sessionId in store.sessions ==> r.0.assessment.overall.num <= r.0.assessment.overall.den
    ensures store.Valid() ==> r.1.Valid()
    ensures r.1.order == store.order && r.1.sessions.Keys == store.sessions.Keys
  {
    if sessionId !in store.sessions then
      (SessionNotFound(NotFoundMessage(sessionId), Keys(store)), store)
    else
      var quiz := store.sessions[sessionId];
      match quiz.scored
      case Some(cached) => (Scored(cached), store)
      case None =>
        var a := Evaluate(sessionId, quiz, answers);
        EvaluateBounds(sessionId, quiz, answers);
        CountCorrectBound(quiz.questions, answers);
        (Scored(a), Put(store, sessionId, quiz.(scored := Some(a))))
  }

  /** An unknown session yields an error naming it and listing exactly the
      sessions the store holds, and leaves the store as it was. */
  lemma ScoreUnknownSession(store: Store, sessionId: string, answers: map<string, string>)
    requires store.Valid()
    requires sessionId !in store.sessions
    ensures Score(store, sessionId, answers).1 == store
    ensures var o := Score(store, sessionId, answers).0;
      && o.SessionNotFound?
      && o.message == "Quiz session " + sessionId + " not found"
      && (forall k :: k in o.availableSessions <==> k in store.sessions)
      && sessionId !in o.availableSessions
      && o.availableSessions == store.order
      && (forall i, j :: 0 <= i < j < |o.availableSessions| ==> o.availableSessions[i] != o.availableSessions[j])
  {
  }

  /** A first scoring returns the evaluated assessment and caches that same
      assessment; only that session's entry changes, and only its cache. */
  lemma ScoreFirstTime(store: Store, sessionId: string, answers: map<string, string>)
    requires sessionId in store.sessions && store.sessions[sessionId].scored.None?
    ensures var (o, s') := Score(store, sessionId, answers);
      && o == Scored(Evaluate(sessionId, store.sessions[sessionId], answers))
      && s'.sessions[sessionId].scored == Some(o.assessment)
      && s'.sessions[sessionId].questions == store.sessions[sessionId].questions
      && s'.sessions[sessionId].title == store.sessions[sessionId].title
      && s'.sessions[sessionId].topics == store.sessions[sessionId].topics
      && (forall k :: k in store.sessions && k != sessionId ==> s'.sessions[k] == store.sessions[k])
      && s'.order == store.order
  {
  }

  /** Scoring is one-shot: once a session is scored, scoring it again with
      any answers returns the first result and changes nothing. */
  lemma ScoreIdempotent(store: Store, sessionId: string, first: map<string, string>, again: map<string, string>)
    requires sessionId in store.sessions
    ensures var (o, s') := Score(store, sessionId, first);
      Score(s', sessionId, again) == (o, s')
  {
  }

  /** Scoring keeps the store's key listing consistent. */
  lemma ScorePreservesValid(store: Store, sessionId: string, answers: map<string, string>)
    requires store.Valid()
    ensures Score(store, sessionId, answers).1.Valid()
  {
  }
}

=== FILE: summarize_content.dfy ===
/** The summarizer's request shaping: which audience template it uses,
    whether it adds a knowledge-gap fragment, and the content excerpt. The
    templates' wording is not modelled; a template is named by its key. */
module SummarizeContent {
  import opened Wrappers
  import opened Json
  import opened Http
  import opened Schema
  import Text

  /** The keys of the audience-template dict. */
  const Templates: map<string, Audience> :=
    map["engineering" := Engineering, "business" := Business, "self" := Self]

  /** `AUDIENCE_TEMPLATES.get(audience, AUDIENCE_TEMPLATES["self"])`: an
      exact, case-sensitive match on an audience value, else "self". */
  function TemplateFor(audience: string): (a: Audience)
    ensures ParseAudience(audience).Some? ==> a == ParseAudience(audience).value
    ensures ParseAudience(audience).None? ==> a == Self
  {
    AudienceEnumeration(audience, Engineering);
    AudienceEnumeration(audience, Business);
    AudienceEnumeration(audience, Self);
    if audience in Templates then Templates[audience] else Templates["self"]
  }

  datatype GapFocus = NoGapFocus | GapFocus(focusAreas: string, skipAreas: string)

  /** The knowledge-gap fragment: empty for an empty assessment, else the
      focus and skip lists each joined with ", ". */
  function BuildGapFocus(assessment: map<string, Value>): (r: Result<GapFocus, Exc>)
    ensures |assessment| == 0 <==> r == Success(NoGapFocus)
  {
    if |assessment| == 0 then Success(NoGapFocus)
    else
      var focus :- JoinAreas(Get(assessment, "focus_areas", JArr([])));
      var skip :- JoinAreas(Get(assessment, "skip_areas", JArr([])));
      Success(GapFocus(focus, skip))
  }

  function JoinAreas(v: Value): Result<string, Exc> {
    match JoinList(v)
    case Some(joined) => Success(joined)
    case None => Failure(OtherErr)
  }

  datatype SummarizePrompt = SummarizePrompt(content: string, audience: string, template: Audience, gapFocus: GapFocus)

  const ContentLimit: nat := 8000

  /** `summarize_content` up to the hosted-model call. `assessment` is the
      decoded `assessment_json`, `None` for an empty string. Only a true
      value is read as a dict, so any false one (`null`, `[]`, `0`, ...)
      means no gap fragment. */
  function Summarize(content: string, contentType: string, audience: string, assessment: Option<Value>): (r: Result<SummarizePrompt, Exc>)
    ensures assessment.None? ==> r.Success? && r.value.gapFocus == NoGapFocus
    ensures assessment.Some? && !Truthy(assessment.value) ==> r.Success? && r.value.gapFocus == NoGapFocus
    ensures assessment.Some? && Truthy(assessment.value) && !assessment.value.JObj? ==> r == Failure(OtherErr)
    ensures assessment.Some? && assessment.value.JObj? ==>
      && (r.Success? <==> BuildGapFocus(assessment.value.fields).Success?)
      && (r.Success? ==> r.value.gapFocus == BuildGapFocus(assessment.value.fields).value)
    ensures r.Success? ==> r.value.audience == audience && r.value.template == TemplateFor(audience)
    ensures r.Success? && contentType == "text" ==>
      r.value.content <= content && |r.value.content| == (if |content| <= ContentLimit then |content| else ContentLimit)
    ensures r.Success? && contentType != "text" ==> r.value.content == Text.PdfPlaceholder
  {
    var template := TemplateFor(audience);
    var gap :- match assessment
               case None => Success(NoGapFocus)
               case Some(v) =>
                 if !Truthy(v) then Success(NoGapFocus)
                 else match v
                      case JObj(m) => BuildGapFocus(m)
                      case _ => Failure(OtherErr);
    Success(SummarizePrompt(Text.ContentExcerpt(content, contentType, ContentLimit), audience, template, gap))
  }

  /** An assessment with focus and skip lists yields a fragment holding
      each list joined with ", " in its original order (the layout of a
      join is `Text.JoinLayout`). */
  lemma GapFocusLists(focus: seq<string>, skip: seq<string>, rest: map<string, Value>)
    ensures var a := rest["focus_areas" := StrArray(focus)]["skip_areas" := StrArray(skip)];
      BuildGapFocus(a) == Success(GapFocus(Text.Join(focus, ", "), Text.Join(skip, ", ")))
  {
    JoinListOfStrings(focus);
    JoinListOfStrings(skip);
    var a := rest["focus_areas" := StrArray(focus)]["skip_areas" := StrArray(skip)];
    assert "focus_areas" in a;
  }
}

=== FILE: summarize_endpoint.dfy ===
/** `POST /summarize`: the configuration guard, the audience enum and the
    reshaping of the summarizer's reply into `SummarizeResponse`. */
module SummarizeEndpoint {
  import opened Wrappers
  import opened Json
  import opened Http
  import opened Fields
  import opened Schema
  import Text

  const DefaultTitle: string := "Untitled"
  /** Code examples are kept only for this exact, un-lowered audience. */
  const EngineeringAudience: string := "engineering"

  /** The lower-cased audience when it names a profile, else `self`. */
  function AudienceOf(requested: string): (a: Audience)
    ensures ParseAudience(Text.Lower(requested)).Some? ==> AudienceValue(a) == Text.Lower(requested)
    ensures ParseAudience(Text.Lower(requested)).None? ==> a == Self
  {
    var lowered := Text.Lower(requested);
    AudienceEnumeration(lowered, ParseAudience(lowered).GetOr(Self));
    ParseAudience(lowered).GetOr(Self)
  }

  /** Lower-casing makes the choice insensitive to ASCII case. */
  lemma AudienceIgnoresCase(requested: string)
    ensures AudienceOf(Text.Lower(requested)) == AudienceOf(requested)
  {
    Text.LowerFixesLower(Text.Lower(requested));
  }

  /** The reshaping as written: the reply's top-level `summary`,
      `key_takeaways`, `code_examples` and `title`. */
  function Reshape(audience: string, result: Value): (r: Result<SummarizeResponse, Exc>)
    ensures r.Success? ==> result.JObj? && r.value.summary.audience == AudienceOf(audience)
    ensures r.Success? ==> Get(result.fields, "summary", JStr("")) == JStr(r.value.summary.content)
    ensures r.Success? ==> ValidStrList(Get(result.fields, "key_takeaways", JArr([]))) == Success(r.value.summary.keyTakeaways)
    ensures r.Success? ==> Get(result.fields, "title", JStr(DefaultTitle)) == JStr(r.value.contentTitle)
    ensures r.Success? && audience != EngineeringAudience ==> r.value.summary.codeExamples.None?
    ensures r.Success? && r.value.summary.codeExamples.Some? ==>
      audience == EngineeringAudience && "code_examples" in result.fields &&
      ValidStrList(result.fields["code_examples"]) == Success(r.value.summary.codeExamples.value)
    ensures r.Success? && audience == EngineeringAudience ==>
      ValidOptStrList(Lookup(result.fields, "code_examples")) == Success(r.value.summary.codeExamples)
  {
    var fields :- AsDict(result);
    var content :- ValidStr(Get(fields, "summary", JStr("")));
    var takeaways :- ValidStrList(Get(fields, "key_takeaways", JArr([])));
    var code :- if audience == EngineeringAudience then ValidOptStrList(Lookup(fields, "code_examples")) else Success(None);
    var title :- ValidStr(Get(fields, "title", JStr(DefaultTitle)));
    Success(SummarizeResponse(title, SummaryContent(AudienceOf(audience), content, takeaways, code)))
  }

  /** The handler with the reshaping as written; every exception, a
      validation error included, becomes a 500. */
  function Summarize(configured: bool, audience: string, run: Result<Value, Exc>): (r: Response<SummarizeResponse>)
    ensures !configured ==> r == Status(ServiceUnavailable)
    ensures configured && r.Status? ==> r.code == ServerError
    ensures r.Ok? <==> configured && run.Success? && Reshape(audience, run.value).Success?
    ensures r.Ok? ==> Reshape(audience, run.value) == Success(r.body)
  {
    if !configured then Status(ServiceUnavailable)
    else
      match run
      case Failure(_) => Status(ServerError)
      case Success(result) =>
        match Reshape(audience, result)
        case Success(body) => Ok(body)
        case Failure(_) => Status(ServerError)
  }

  // ------------------------------------------------ the prompt's shape

  /** The reply the summarizer prompt asks the model for: the title under
      `content_title` and the summary as a nested object. */
  function PromptReply(title: string, audience: string, content: string, takeaways: seq<string>, code: Option<seq<string>>): Value {
    JObj(map[
      "content_title" := JStr(title),
      "summary" := JObj(map[
        "audience" := JStr(audience),
        "content" := JStr(content),
        "key_takeaways" := StrArray(takeaways),
        "code_examples" := if code.Some? then StrArray(code.value) else JNull])])
  }

  /** A reply in exactly the shape the prompt requests is refused: its
      `summary` is an object where the handler expects a string. */
  lemma PromptShapedReplyRejected(configured: bool, audience: string, title: string, content: string,
                                  takeaways: seq<string>, code: Option<seq<string>>)
    requires configured
    ensures Summarize(configured, audience, Success(PromptReply(title, audience, content, takeaways, code))) == Status(ServerError)
  {
    var reply := PromptReply(title, audience, content, takeaways, code);
    assert Get(reply.fields, "summary", JStr("")).JObj?;
  }

  /** The reshaping corrected to read the prompt's nested shape. */
  function ReshapeNested(audience: string, result: Value): (r: Result<SummarizeResponse, Exc>)
    ensures r.Success? ==> result.JObj? && r.value.summary.audience == AudienceOf(audience)
    ensures r.Success? ==> Get(result.fields, "content_title", JStr(DefaultTitle)) == JStr(r.value.contentTitle)
    ensures r.Success? ==>
      var summary := Get(result.fields, "summary", JObj(map[]));
      && summary.JObj?
      && Get(summary.fields, "content", JStr("")) == JStr(r.value.summary.content)
      && ValidStrList(Get(summary.fields, "key_takeaways", JArr([]))) == Success(r.value.summary.keyTakeaways)
      && (r.value.summary.codeExamples.Some? ==>
            audience == EngineeringAudience && "code_examples" in summary.fields &&
            ValidStrList(summary.fields["code_examples"]) == Success(r.value.summary.codeExamples.value))
    ensures r.Success? && audience != EngineeringAudience ==> r.value.summary.codeExamples.None?
    ensures r.Success? && audience == EngineeringAudience ==>
      ValidOptStrList(Lookup(Get(result.fields, "summary", JObj(map[])).fields, "code_examples")) == Success(r.value.summary.codeExamples)
  {
    var fields :- AsDict(result);
    var summary :- AsDict(Get(fields, "summary", JObj(map[])));
    var content :- ValidStr(Get(summary, "content", JStr("")));
    var takeaways :- ValidStrList(Get(summary, "key_takeaways", JArr([])));
    var code :- if audience == EngineeringAudience then ValidOptStrList(Lookup(summary, "code_examples")) else Success(None);
    var title :- ValidStr(Get(fields, "content_title", JStr(DefaultTitle)));
    Success(SummarizeResponse(title, SummaryContent(AudienceOf(audience), content, takeaways, code)))
  }

  /** The handler with the corrected reshaping. */
  function SummarizeCorrected(configured: bool, audience: string, run: Result<Value, Exc>): (r: Response<SummarizeResponse>)
    ensures !configured ==> r == Status(ServiceUnavailable)
    ensures configured && r.Status? ==> r.code == ServerError
    ensures r.Ok? <==> configured && run.Success? && ReshapeNested(audience, run.value).Success?
    ensures r.Ok? ==> ReshapeNested(audience, run.value) == Success(r.body)
  {
    if !configured then Status(ServiceUnavailable)
    else
      match run
      case Failure(_) => Status(ServerError)
      case Success(result) =>
        match ReshapeNested(audience, result)
        case Success(body) => Ok(body)
        case Failure(_) => Status(ServerError)
  }

  /** The corrected handler returns every part of a prompt-shaped reply,
      code examples only for the engineering audience. */
  lemma {:induction false} PromptShapedReplyAccepted(audience: string, title: string, content: string,
                                                     takeaways: seq<string>, code: Option<seq<string>>)
    ensures SummarizeCorrected(true, audience, Success(PromptReply(title, audience, content, takeaways, code)))
         == Ok(SummarizeResponse(title, SummaryContent(AudienceOf(audience), content, takeaways,
                                                       if audience == EngineeringAudience then code else None)))
  {
    StrArrayValid(takeaways);
    if code.Some? {
      StrArrayValid(code.value);
    }
  }
}

=== FILE: text.dfy ===
/** String helpers with Python's meaning: slicing, `", ".join`, ASCII
    lower-casing, and the content excerpt every prompt embeds. */
module Text {

  /** Python's `s[:n]` for a non-negative `n`. */
  function Take<T>(s: seq<T>, n: nat): (r: seq<T>)
    ensures |r| == (if |s| <= n then |s| else n)
    ensures r <= s
  {
    if |s| <= n then s else s[..n]
  }

  /** Python's `sep.join(xs)`. */
  function Join(xs: seq<string>, sep: string): string
    decreases |xs|
  {
    if |xs| == 0 then ""
    else if |xs| == 1 then xs[0]
    else xs[0] + sep + Join(xs[1..], sep)
  }

  /** Where element `i` of `xs` starts inside `Join(xs, sep)`. */
  function JoinOffset(xs: seq<string>, sep: string, i: nat): nat
    requires i <= |xs|
    decreases i
  {
    if i == 0 then 0 else |xs[0]| + |sep| + JoinOffset(xs[1..], sep, i - 1)
  }

  lemma SliceOfConcat<T>(a: seq<T>, b: seq<T>, k: nat, m: nat)
    requires k + m <= |b|
    ensures (a + b)[|a| + k .. |a| + k + m] == b[k .. k + m]
  {
  }

  /** The joined string holds every element, in the original order, each at
      its offset, separated by `sep`. */
  lemma {:induction false} JoinLayout(xs: seq<string>, sep: string, i: nat)
    requires i < |xs|
    ensures JoinOffset(xs, sep, i) + |xs[i]| <= |Join(xs, sep)|
    ensures Join(xs, sep)[JoinOffset(xs, sep, i) .. JoinOffset(xs, sep, i) + |xs[i]|] == xs[i]
    ensures i + 1 < |xs| ==> JoinOffset(xs, sep, i) + |xs[i]| + |sep| <= |Join(xs, sep)|
    ensures i + 1 < |xs| ==>
      Join(xs, sep)[JoinOffset(xs, sep, i) + |xs[i]| .. JoinOffset(xs, sep, i) + |xs[i]| + |sep|] == sep
    decreases i
  {
    if |xs| == 1 {
      assert Join(xs, sep) == xs[0];
    } else if i == 0 {
      var rest := Join(xs[1..], sep);
      assert Join(xs, sep) == xs[0] + sep + rest;
      assert JoinOffset(xs, sep, 1) == |xs[0]| + |sep| + JoinOffset(xs[1..], sep, 0);
      assert (xs[0] + sep + rest)[..|xs[0]|] == xs[0];
      assert (xs[0] + sep + rest)[|xs[0]|..|xs[0]| + |sep|] == sep;
    } else {
      JoinLayout(xs[1..], sep, i - 1);
      var head := xs[0] + sep;
      var rest := Join(xs[1..], sep);
      assert Join(xs, sep) == head + rest;
      var o := JoinOffset(xs[1..], sep, i - 1);
      assert JoinOffset(xs, sep, i) == |head| + o;
      assert xs[1..][i - 1] == xs[i];
      SliceOfConcat(head, rest, o, |xs[i]|);
      if i + 1 < |xs| {
        SliceOfConcat(head, rest, o + |xs[i]|, |sep|);
      }
    }
  }

  /** The joined string ends right after its last element, and joining
      nothing gives the empty string; with `JoinLayout` this pins the join
      down completely. */
  lemma {:induction false} JoinLength(xs: seq<string>, sep: string)
    ensures |xs| == 0 ==> Join(xs, sep) == ""
    ensures |xs| > 0 ==> |Join(xs, sep)| == JoinOffset(xs, sep, |xs| - 1) + |xs[|xs| - 1]|
    decreases |xs|
  {
    if |xs| > 1 {
      JoinLength(xs[1..], sep);
      assert xs[1..][|xs| - 2] == xs[|xs| - 1];
    }
  }

  /** ASCII case folding. `str.lower` also folds non-ASCII letters, some
      of them onto ASCII ones (KELVIN SIGN becomes 'k'); those are not
      folded here. */
  function LowerChar(c: char): char {
    if 'A' <= c <= 'Z' then (c as int + 32) as char else c
  }

  predicate IsLowerAscii(s: string) {
    forall i :: 0 <= i < |s| ==> !('A' <= s[i] <= 'Z')
  }

  /** Python's `s.lower()`, restricted to ASCII letters. */
  function Lower(s: string): (r: string)
    ensures |r| == |s|
    ensures IsLowerAscii(r)
    ensures forall i :: 0 <= i < |s| && !('A' <= s[i] <= 'Z') ==> r[i] == s[i]
    ensures forall i :: 0 <= i < |s| && 'A' <= s[i] <= 'Z' ==> r[i] as int == s[i] as int + 32
  {
    seq(|s|, i requires 0 <= i < |s| => LowerChar(s[i]))
  }

  /** Lower-casing leaves already-lower strings alone. As `Lower`'s result
      is always lower, lower-casing twice is lower-casing once. */
  lemma LowerFixesLower(s: string)
    requires IsLowerAscii(s)
    ensures Lower(s) == s
  {
  }

  const PdfPlaceholder: string := "[PDF Content]"

  /** The content a prompt embeds: the first `limit` characters of text
      content, and a fixed placeholder for anything else (the document itself
      travels as a separate part). */
  function ContentExcerpt(content: string, contentType: string, limit: nat): (r: string)
    ensures contentType == "text" ==> r <= content && |r| == (if |content| <= limit then |content| else limit)
    ensures contentType != "text" ==> r == PdfPlaceholder
  {
    if contentType == "text" then Take(content, limit) else PdfPlaceholder
  }
}

=== FILE: triage_endpoint.dfy ===
/** `POST /assess/answers`: the configuration guard, the reshaping of the
    triage pipeline's result into the response models, and the mapping of
    exceptions to status codes. */
module TriageEndpoint {
  import opened Wrappers
  import opened Json
  import opened Http
  import opened Fields
  import opened Schema
  import Text

  datatype AnswersRequest = AnswersRequest(
    sessionId: string,
    answers: map<string, string>,
    content: string,
    contentType: string,
    url: Option<string>)

  const DefaultTitle: string := "Untitled"
  const DefaultMedium: string := "article"
  const DefaultStatusText: string := "not_started"
  const DefaultConfidence: real := 0.8
  const TitleLimit: nat := 60
  const SubjectLimit: nat := 3
  const TagLimit: nat := 5

  // -------------------------------------------------------- assessment

  /** The five keys every `topics_assessed` entry is subscripted with. */
  predicate HasTopicKeys(t: map<string, Value>) {
    "topic" in t && "score" in t && "status" in t && "questions_correct" in t && "questions_total" in t
  }

  /** One `TopicAssessment(...)`: all five keys are subscripted (a
      `KeyError` if one is missing) before the model validates them. */
  function BuildTopic(v: Value): (r: Result<TopicAssessment, Exc>)
    ensures r.Failure? ==> r.error.ValueErr? || r.error.OtherErr?
    ensures r.Success? ==> TopicAssessmentValid(r.value)
    ensures r.Success? ==> v.JObj? && "topic" in v.fields && v.fields["topic"] == JStr(r.value.topic)
    ensures r.Success? ==> "score" in v.fields && v.fields["score"] == JNum(r.value.score)
    ensures r.Success? ==> "status" in v.fields && v.fields["status"] == JStr(r.value.status)
    ensures r.Success? ==> "questions_correct" in v.fields && v.fields["questions_correct"] == JNum(r.value.questionsCorrect as real)
    ensures r.Success? ==> "questions_total" in v.fields && v.fields["questions_total"] == JNum(r.value.questionsTotal as real)
    ensures v.JObj? && !HasTopicKeys(v.fields) ==> r == Failure(OtherErr)
  {
    var t :- AsDict(v);
    if !HasTopicKeys(t) then
      Failure(OtherErr)
    else
      var topic :- ValidStr(t["topic"]);
      var score :- ValidUnit(t["score"]);
      var status :- ValidStr(t["status"]);
      var correct :- ValidInt(t["questions_correct"]);
      var total :- ValidInt(t["questions_total"]);
      Success(TopicAssessment(topic, score, status, correct, total))
  }

  /** The list comprehension over `topics_assessed`: the first failing
      entry raises. */
  function BuildTopics(items: seq<Value>): (r: Result<seq<TopicAssessment>, Exc>)
    ensures r.Failure? ==> r.error.ValueErr? || r.error.OtherErr?
    ensures r.Success? ==> |r.value| == |items|
    ensures r.Success? ==> forall i :: 0 <= i < |items| ==> BuildTopic(items[i]) == Success(r.value[i])
    ensures r.Failure? ==> exists i :: 0 <= i < |items| && BuildTopic(items[i]) == Failure(r.error)
  {
    if |items| == 0 then Success([])
    else
      var t :- BuildTopic(items[0]);
      var rest :- BuildTopics(items[1..]);
      assert forall i :: 1 <= i < |items| ==> items[i] == items[1..][i - 1];
      Success([t] + rest)
  }

  /** The `AssessmentResult(...)` built from the scorer's output: session
      id defaulting to the request's, topics copied in order, overall
      defaulting to 0, area lists defaulting to empty. */
  function BuildAssessment(requestSessionId: string, data: map<string, Value>): (r: Result<AssessmentResult, Exc>)
    ensures r.Failure? ==> r.error.ValueErr? || r.error.OtherErr?
    ensures r.Success? ==> AssessmentResultValid(r.value)
    ensures r.Success? ==> r.value.status == "complete" && r.value.estimatedLearningTime.None?
    ensures r.Success? ==> Get(data, "session_id", JStr(requestSessionId)) == JStr(r.value.sessionId)
    ensures r.Success? ==> Get(data, "title", JStr(DefaultTitle)) == JStr(r.value.contentTitle)
    ensures r.Success? ==> Get(data, "overall_knowledge", JNum(0.0)) == JNum(r.value.overallKnowledge)
    ensures r.Success? ==> ValidStrList(Get(data, "focus_areas", JArr([]))) == Success(r.value.focusAreas)
    ensures r.Success? ==> ValidStrList(Get(data, "skip_areas", JArr([]))) == Success(r.value.skipAreas)
    ensures r.Success? ==> Iterate(Get(data, "topics_assessed", JArr([]))).Success?
    ensures r.Success? ==>
      var items := Iterate(Get(data, "topics_assessed", JArr([]))).value;
      && |r.value.topicsAssessed| == |items|
      && forall i :: 0 <= i < |items| ==> BuildTopic(items[i]) == Success(r.value.topicsAssessed[i])
  {
    var items :- Iterate(Get(data, "topics_assessed", JArr([])));
    var topics :- BuildTopics(items);
    var sessionId :- ValidStr(Get(data, "session_id", JStr(requestSessionId)));
    var title :- ValidStr(Get(data, "title", JStr(DefaultTitle)));
    var overall :- ValidUnit(Get(data, "overall_knowledge", JNum(0.0)));
    var focus :- ValidStrList(Get(data, "focus_areas", JArr([])));
    var skip :- ValidStrList(Get(data, "skip_areas", JArr([])));
    Success(AssessmentResult(sessionId, "complete", title, topics, overall, focus, skip, None))
  }

  /** `BuildAssessment` from the outcomes of its steps. */
  lemma BuildAssessmentSteps(requestSessionId: string, data: map<string, Value>, items: seq<Value>,
                             topics: seq<TopicAssessment>, sessionId: string, title: string,
                             overall: real, focus: seq<string>, skip: seq<string>)
    requires Iterate(Get(data, "topics_assessed", JArr([]))) == Success(items)
    requires BuildTopics(items) == Success(topics)
    requires ValidStr(Get(data, "session_id", JStr(requestSessionId))) == Success(sessionId)
    requires ValidStr(Get(data, "title", JStr(DefaultTitle))) == Success(title)
    requires ValidUnit(Get(data, "overall_knowledge", JNum(0.0))) == Success(overall)
    requires ValidStrList(Get(data, "focus_areas", JArr([]))) == Success(focus)
    requires ValidStrList(Get(data, "skip_areas", JArr([]))) == Success(skip)
    ensures BuildAssessment(requestSessionId, data)
         == Success(AssessmentResult(sessionId, "complete", title, topics, overall, focus, skip, None))
  {
  }

  // ------------------------------------------------------ organization

  /** The medium after lower-casing, falling back to "article" for a
      value outside the enumeration. */
  function NormaliseMedium(raw: string): (m: ContentMedium)
    ensures ParseMedium(Text.Lower(raw)).Some? ==> MediumValue(m) == Text.Lower(raw)
    ensures ParseMedium(Text.Lower(raw)).None? ==> m == Article
  {
    MediumEnumeration(Text.Lower(raw), ParseMedium(Text.Lower(raw)).GetOr(Article));
    ParseMedium(Text.Lower(raw)).GetOr(Article)
  }

  /** The status after lower-casing, falling back to "not_started". */
  function NormaliseStatus(raw: string): (s: ProgressStatus)
    ensures ParseStatus(Text.Lower(raw)).Some? ==> StatusValue(s) == Text.Lower(raw)
    ensures ParseStatus(Text.Lower(raw)).None? ==> s == NotStarted
  {
    StatusEnumeration(Text.Lower(raw), ParseStatus(Text.Lower(raw)).GetOr(NotStarted));
    ParseStatus(Text.Lower(raw)).GetOr(NotStarted)
  }

  /** A medium already spelled as one of the enumeration's values, in any
      ASCII case, is kept. */
  lemma NormaliseMediumKeeps(m: ContentMedium, raw: string)
    requires Text.Lower(raw) == MediumValue(m)
    ensures NormaliseMedium(raw) == m
  {
    MediumEnumeration(MediumValue(m), m);
  }

  /** A status already spelled as one of the enumeration's values, in any
      ASCII case, is kept. */
  lemma NormaliseStatusKeeps(s: ProgressStatus, raw: string)
    requires Text.Lower(raw) == StatusValue(s)
    ensures NormaliseStatus(raw) == s
  {
    StatusEnumeration(StatusValue(s), s);
  }

  /** The enumeration's own spellings are lower case, so they are kept. */
  lemma StatusValueKept(s: ProgressStatus)
    ensures NormaliseStatus(StatusValue(s)) == s
  {
    assert Text.IsLowerAscii(StatusValue(s));
    Text.LowerFixesLower(StatusValue(s));
    NormaliseStatusKeeps(s, StatusValue(s));
  }

  /** The `ContentNodeMetadata(...)` built from the organizer's node: the
      Python operations on the fields run first, then validation. */
  function BuildContentNode(url: Option<string>, node: map<string, Value>): (r: Result<ContentNodeMetadata, Exc>)
    ensures r.Failure? ==> r.error.ValueErr? || r.error.OtherErr?
    ensures r.Success? ==> ContentNodeValid(r.value)
    ensures r.Success? ==> |r.value.title| <= TitleLimit && |r.value.subjects| <= SubjectLimit && |r.value.tags| <= TagLimit
    ensures r.Success? ==> r.value.url == url && r.value.priority == DefaultPriority
    ensures r.Success? ==> r.value.estimatedDuration.None? && r.value.notes.None?
    ensures r.Success? ==>
      var medium := Get(node, "medium", JStr(DefaultMedium));
      medium.JStr? && r.value.medium == NormaliseMedium(medium.s)
    ensures r.Success? ==>
      var status := Get(node, "status", JStr(DefaultStatusText));
      status.JStr? && r.value.status == NormaliseStatus(status.s)
    ensures r.Success? ==>
      var title := Get(node, "title", JStr(DefaultTitle));
      title.JStr? && r.value.title == Text.Take(title.s, TitleLimit)
    ensures r.Success? ==>
      var subjects := Get(node, "subjects", JArr([]));
      subjects.JArr? && ValidStrList(JArr(Text.Take(subjects.items, SubjectLimit))) == Success(r.value.subjects)
    ensures r.Success? ==>
      var tags := Get(node, "tags", JArr([]));
      tags.JArr? && ValidStrList(JArr(Text.Take(tags.items, TagLimit))) == Success(r.value.tags)
    ensures r.Success? ==>
      var progress := Get(node, "progressPercent", JNum(0.0));
      progress.JNum? && r.value.progressPercent as real == Clamp(progress.n, 0.0, 100.0)
  {
    var medium :- LowerOf(Get(node, "medium", JStr(DefaultMedium)));
    var status :- LowerOf(Get(node, "status", JStr(DefaultStatusText)));
    var titleV :- SliceOf(Get(node, "title", JStr(DefaultTitle)), TitleLimit);
    var subjectsV :- SliceOf(Get(node, "subjects", JArr([])), SubjectLimit);
    var progressV :- ClampPercent(Get(node, "progressPercent", JNum(0.0)));
    var tagsV :- SliceOf(Get(node, "tags", JArr([])), TagLimit);
    var title :- ValidStr(titleV);
    var subjects :- ValidStrList(subjectsV);
    var progress :- ValidInt(progressV);
    var author :- ValidOptStr(Lookup(node, "author"));
    var source :- ValidOptStr(Lookup(node, "source"));
    var tags :- ValidStrList(tagsV);
    var mediumEnum := ParseMedium(medium).GetOr(Article);
    var statusEnum := ParseStatus(status).GetOr(NotStarted);
    Success(ContentNodeMetadata(title, mediumEnum, subjects, url, statusEnum, progress, author, source, None, DefaultPriority, None, tags))
  }

  /** The `AISuggestion(...)`: each field defaults to the content node's,
      except that the medium is always the node's, `isNewSubject`
      defaults to false and the confidence to 0.8. */
  function BuildSuggestion(node: ContentNodeMetadata, suggestion: Value): (r: Result<AISuggestion, Exc>)
    ensures r.Failure? ==> r.error.ValueErr? || r.error.OtherErr?
    ensures r.Success? ==> AISuggestionValid(r.value) && r.value.medium == node.medium
    ensures r.Success? ==> suggestion.JObj?
    ensures r.Success? && "title" !in suggestion.fields ==> r.value.title == node.title
    ensures r.Success? && "subjects" !in suggestion.fields ==> r.value.subjects == node.subjects
    ensures r.Success? && "tags" !in suggestion.fields ==> r.value.tags == node.tags
    ensures r.Success? && "isNewSubject" !in suggestion.fields ==> !r.value.isNewSubject
    ensures r.Success? && "confidence" !in suggestion.fields ==> r.value.confidence == DefaultConfidence
    ensures r.Success? ==> Get(suggestion.fields, "title", JStr(node.title)) == JStr(r.value.title)
    ensures r.Success? ==> ValidStrList(Get(suggestion.fields, "subjects", StrArray(node.subjects))) == Success(r.value.subjects)
    ensures r.Success? ==> ValidStrList(Get(suggestion.fields, "tags", StrArray(node.tags))) == Success(r.value.tags)
    ensures r.Success? ==> Get(suggestion.fields, "isNewSubject", JBool(false)) == JBool(r.value.isNewSubject)
    ensures r.Success? ==> Get(suggestion.fields, "confidence", JNum(DefaultConfidence)) == JNum(r.value.confidence)
  {
    var s :- AsDict(suggestion);
    var title :- ValidStr(Get(s, "title", JStr(node.title)));
    var subjects :- ValidStrList(Get(s, "subjects", StrArray(node.subjects)));
    var tags :- ValidStrList(Get(s, "tags", StrArray(node.tags)));
    var isNew :- ValidBool(Get(s, "isNewSubject", JBool(false)));
    var confidence :- ValidUnit(Get(s, "confidence", JNum(DefaultConfidence)));
    StrArrayValid(node.subjects);
    StrArrayValid(node.tags);
    Success(AISuggestion(title, node.medium, subjects, tags, isNew, confidence))
  }

  /** The node is the organizer result's `content_node` when present,
      else the result itself. */
  function NodeData(org: map<string, Value>): Value {
    Get(org, "content_node", JObj(org))
  }

  function BuildOrganization(url: Option<string>, org: Value): (r: Result<OrganizeResponse, Exc>)
    ensures r.Failure? ==> r.error.ValueErr? || r.error.OtherErr?
    ensures r.Success? ==> org.JObj? && NodeData(org.fields).JObj?
    ensures r.Success? ==> BuildContentNode(url, NodeData(org.fields).fields) == Success(r.value.contentNode)
    ensures r.Success? ==>
      BuildSuggestion(r.value.contentNode, Get(org.fields, "ai_suggestion", JObj(map[]))) == Success(r.value.aiSuggestion)
  {
    var orgFields :- AsDict(org);
    var suggestion := Get(orgFields, "ai_suggestion", JObj(map[]));
    var node :- AsDict(NodeData(orgFields));
    var contentNode :- BuildContentNode(url, node);
    var aiSuggestion :- BuildSuggestion(contentNode, suggestion);
    Success(OrganizeResponse(contentNode, aiSuggestion))
  }

  // --------------------------------------------------------- handler

  /** The scorer's output is checked for an `"error"` key, which raises a
      400 `HTTPException` inside the handler's `try`. */
  function AssessmentData(v: Value): (r: Result<map<string, Value>, Exc>)
    ensures v.JObj? && "error" in v.fields ==> r == Failure(HttpErr(BadRequest))
    ensures r.Success? ==> v.JObj? && "error" !in v.fields && r.value == v.fields
  {
    match v
    case JObj(m) => if "error" in m then Failure(HttpErr(BadRequest)) else Success(m)
    case _ => Failure(OtherErr)
  }

  function BuildTriage(req: AnswersRequest, result: Value): (r: Result<TriageResponse, Exc>)
    ensures r.Success? ==> TriageResponseValid(r.value)
    ensures r.Failure? && r.error.HttpErr? <==> r == Failure(HttpErr(BadRequest))
    ensures r == Failure(HttpErr(BadRequest)) <==>
      result.JObj? && Get(result.fields, "assessment", JObj(map[])).JObj? &&
      "error" in Get(result.fields, "assessment", JObj(map[])).fields
  {
    var fields :- AsDict(result);
    var data :- AssessmentData(Get(fields, "assessment", JObj(map[])));
    var assessment :- BuildAssessment(req.sessionId, data);
    var organization :- BuildOrganization(req.url, Get(fields, "organization", JObj(map[])));
    Success(TriageResponse(assessment, organization))
  }

  /** A response is built from the assessment and the organization the
      pipeline returned, each read on its own. */
  lemma BuildTriageParts(req: AnswersRequest, result: Value)
    ensures var r := BuildTriage(req, result);
      r.Success? ==>
        && result.JObj?
        && (var a := Get(result.fields, "assessment", JObj(map[]));
            && a.JObj? && "error" !in a.fields
            && BuildAssessment(req.sessionId, a.fields) == Success(r.value.assessment))
        && BuildOrganization(req.url, Get(result.fields, "organization", JObj(map[]))) == Success(r.value.organization)
  {
  }

  /** `except ValueError` gives 404; `except Exception` gives 500 for
      everything else, the handler's own 400 included. */
  function StatusFor(e: Exc): int {
    match e
    case ValueErr => NotFound
    case _ => ServerError
  }

  /** The handler. `run` is what the triage pipeline returned or raised. */
  function Triage(configured: bool, req: AnswersRequest, run: Result<Value, Exc>): (r: Response<TriageResponse>)
    ensures !configured ==> r == Status(ServiceUnavailable)
    ensures r.Ok? ==> TriageResponseValid(r.body)
    ensures r.Ok? ==> run.Success? && BuildTriage(req, run.value) == Success(r.body)
    ensures r.Status? ==> r.code in {ServiceUnavailable, NotFound, ServerError}
    ensures r == Status(NotFound) <==>
      configured && (run == Failure(ValueErr) || (run.Success? && BuildTriage(req, run.value) == Failure(ValueErr)))
    ensures configured && run.Success? && BuildTriage(req, run.value).Success? ==> r == Ok(BuildTriage(req, run.value).value)
  {
    if !configured then Status(ServiceUnavailable)
    else
      var outcome := match run
                     case Failure(e) => Failure(e)
                     case Success(result) => BuildTriage(req, result);
      match outcome
      case Success(body) => Ok(body)
      case Failure(e) => Status(StatusFor(e))
  }

  /** The session-not-found check raises a 400 inside the `try`, whose
      `except Exception` turns it into a 500: a scorer error never reaches
      the client as a 400, whatever else the result holds. */
  lemma ScorerErrorIsServerError(req: AnswersRequest, result: map<string, Value>, assessment: map<string, Value>)
    requires "assessment" in result && result["assessment"] == JObj(assessment)
    requires "error" in assessment
    ensures Triage(true, req, Success(JObj(result))) == Status(ServerError)
  {
  }

  /** The mapping the handler evidently intends: an `HTTPException` raised
      inside the `try` keeps its own code. */
  function StatusForCorrected(e: Exc): int {
    match e
    case ValueErr => NotFound
    case HttpErr(code) => code
    case OtherErr => ServerError
  }

  /** The handler with `HTTPException` passed through. */
  function TriageCorrected(configured: bool, req: AnswersRequest, run: Result<Value, Exc>): (r: Response<TriageResponse>)
    ensures !configured ==> r == Status(ServiceUnavailable)
    ensures r.Ok? <==> configured && run.Success? && BuildTriage(req, run.value).Success?
    ensures r.Ok? ==> BuildTriage(req, run.value) == Success(r.body)
    ensures configured && run.Success? ==>
      (r == Status(BadRequest) <==> BuildTriage(req, run.value) == Failure(HttpErr(BadRequest)))
  {
    if !configured then Status(ServiceUnavailable)
    else
      var outcome := match run
                     case Failure(e) => Failure(e)
                     case Success(result) => BuildTriage(req, result);
      match outcome
      case Success(body) => Ok(body)
      case Failure(e) => Status(StatusForCorrected(e))
  }

  /** With the pass-through, a scorer error reaches the client as a 400. */
  lemma ScorerErrorIsClientErrorCorrected(req: AnswersRequest, result: map<string, Value>, assessment: map<string, Value>)
    requires "assessment" in result && result["assessment"] == JObj(assessment)
    requires "error" in assessment
    ensures TriageCorrected(true, req, Success(JObj(result))) == Status(BadRequest)
  {
  }
}

=== FILE: wrappers.dfy ===
/** Failure-compatible wrappers used throughout the model: `Option` for the
    keys a Python dict may lack, `Result` for operations that raise. */
module Wrappers {

  datatype Option<+T> = None | Some(value: T) {

    /** Python's `d.get(k, default)` once the lookup is an Option. */
    function GetOr(default: T): T {
      match this
      case Some(v) => v
      case None => default
    }
  }

  datatype Result<+T, +E> = Success(value: T) | Failure(error: E) {

    predicate IsFailure() {
      Failure?
    }

    function PropagateFailure<U>(): Result<U, E>
      requires Failure?
    {
      Failure(error)
    }

    function Extract(): T
      requires Success?
    {
      value
    }
  }
}
